=== FILE: README.md ===
# Live TV M3U tuner, next-up episodes and address classification — a Dafny model

This project models three pieces of pure logic from the media server and
proves properties of them:

- **The M3U tuner host** (`M3UTunerHost`), in `m3u.dfy`:
  - channel discovery from an Extended M3U playlist. This is a scan over the
    playlist's lines. It keeps a pending (number, name) pair taken from the
    last `#EXTINF` tag and emits a channel for the next path line.
  - the namespaced channel id, `"m3u_"` + digest of the source URL + number.
  - resolution of a channel id to a media source. This covers the namespace
    check, the first case-insensitive id match and the protocol taken from
    the path's scheme.
  - the list of configured tuners, and where the playlist is read from.
- **Next-up episode selection** (`TVSeriesManager`), in `nextup.dfy`:
  - the newest-to-oldest scan over a series' episodes that picks the episode
    to watch next.
  - the series filter and the ranking by the user's rating and by recency.
  - the skip/take pager that reports the total before paging.
- **Address classification and endpoint parsing** (`BaseNetworkManager`), in
  `network.dfy`:
  - the prefix tests for private and link-local addresses.
  - the machine's own-address list.
  - the local-network test.
  - the port check, and the split of an endpoint string into an address part
    and a port.

Three shared modules support them. `wrappers.dfy` holds `Option` and `Result`.
`seqs.dfy` holds LINQ's `Where` and `Select(…).Where(v => v != null)` over
sequences, with what they keep, how often, and in which order.
`text.dfy` holds the .NET string behaviour the code relies on:
- trimming and whitespace tests;
- ordinal case-insensitive comparison (ASCII folding);
- character search, `Split` and `Join`;
- decimal rendering, and `Int32.TryParse`.

Exceptions become the `Failure` arm of a `Result`. A null result becomes
`None`.

### Behaviour worth noting

- **Missing comma.** An `#EXTINF:` line with no comma fails the whole
  discovery (`parts[1]` is out of range). It is not dropped silently.
  `GetChannelsInternal` fails exactly when such a line occurs.
- **Audio stream flag.** The audio stream of a media source has
  `IsInterlaced` false, the C# default. It is not "true = unknown".
- **Two entries with the same number.** A playlist whose two entries both
  carry number `0` gives the two channels the *same* id
  (`SameNumberSameId`), not distinct ones. Resolution takes the first id
  match, so the second channel resolves to the first channel's path
  (`ResolveDiscovered`).
- **Whitespace number.** An entry line that follows a whitespace-only channel
  number is dropped. The pending pair is kept, not cleared
  (`EntryWithoutNumberKept`).

## Model

| member | source | states |
|---|---|---|
| M3U.ParseInfo | MediaBrowser.Server.Implementations/LiveTv/TunerHosts/M3UTunerHost.cs:75-77 | The tag line is cut at its first colon and then at the first comma. The number holds no comma, and head + number + "," + name rebuilds the line. With no comma after the colon the line is the error case. |
| M3U.ParseRenderedInfo | MediaBrowser.Server.Implementations/LiveTv/TunerHosts/M3UTunerHost.cs:75-77 | A rendered `head:number,name` with a comma-free number reads back as exactly that number and name. |
| M3U.Classify | MediaBrowser.Server.Implementations/LiveTv/TunerHosts/M3UTunerHost.cs:62-79 | A line that trims to nothing is blank. A trimmed line starting with `#EXTM3U` in any case is the header. One starting with `#EXTINF:` and not the header is an info line parsed from the trimmed text. Anything else is an entry whose path is the trimmed, non-empty line. |
| M3U.ClassifyRenderedInfo | MediaBrowser.Server.Implementations/LiveTv/TunerHosts/M3UTunerHost.cs:73-78 | `#EXTINF` in any case, a comma-free number and a name with no trailing whitespace (as the trimmed line yields) classify as that number and name. |
| M3U.ClassifyHeaderLine | MediaBrowser.Server.Implementations/LiveTv/TunerHosts/M3UTunerHost.cs:68-71 | A trimmed line starting with `#EXTM3U` in any case is the header. |
| M3U.ClassifyPathLine | MediaBrowser.Server.Implementations/LiveTv/TunerHosts/M3UTunerHost.cs:79-86 | A trimmed line not starting with `#` is an entry with exactly that path. |
| M3U.ClassifyOtherLine | MediaBrowser.Server.Implementations/LiveTv/TunerHosts/M3UTunerHost.cs:79-86 | Any other trimmed, non-empty line is an entry with exactly that path. This includes other `#` tags such as `#EXTVLCOPT`. |
| M3U.ClassifyAllParsed | MediaBrowser.Server.Implementations/LiveTv/TunerHosts/M3UTunerHost.cs:62-86 | Every entry the classifier yields has a path that classifies back to the same entry (trimming is idempotent). |
| M3U.Step | MediaBrowser.Server.Implementations/LiveTv/TunerHosts/M3UTunerHost.cs:62-91 | One line fails exactly when it is an info line without a comma. Otherwise the earlier channels stay a prefix and at most one channel is added. A channel is added only for a path line while metadata is pending; it consumes that metadata and has the line as its path. |
| M3U.StepInvariant | MediaBrowser.Server.Implementations/LiveTv/TunerHosts/M3UTunerHost.cs:62-91 | One line fails exactly when it is an info line without a comma. Otherwise the channel list only grows, by at most one. A new channel appears only when metadata was pending; it clears the pending pair, has the line as its path and a namespaced id. Channels emitted plus metadata held never exceed metadata held before plus one per info line. |
| M3U.Run | MediaBrowser.Server.Implementations/LiveTv/TunerHosts/M3UTunerHost.cs:60-92 | A successful run keeps the starting channels as a prefix and adds at most one channel per line read. |
| M3U.RunInvariant | MediaBrowser.Server.Implementations/LiveTv/TunerHosts/M3UTunerHost.cs:60-92 | Over any run of lines: it fails exactly when some line is an info line without a comma. Otherwise earlier channels are kept as a prefix, every new channel has a namespaced id, and the number of new channels is bounded by the info lines. |
| M3U.GetChannelsInternal | MediaBrowser.Server.Implementations/LiveTv/TunerHosts/M3UTunerHost.cs:46-95 | Discovery fails exactly when some playlist line is an `#EXTINF:` line without a comma. Otherwise there are at most as many channels as info lines, and every id is `"m3u_"` + digest(url) + number. |
| M3U.PlaylistRoundTrip | MediaBrowser.Server.Implementations/LiveTv/TunerHosts/M3UTunerHost.cs:46-95 | Discovery reads back a written playlist: the header, then for each item an `#EXTINF:number,name` line and its path line, yields exactly one channel per item, in order, with id `m3u_` + digest(url) + number and the item's name, number and path. Items need a comma-free, non-blank number, a name without trailing white space and a trimmed path not starting with `#`. |
| M3U.OneChannelPlaylist | MediaBrowser.Server.Implementations/LiveTv/TunerHosts/M3UTunerHost.cs:46-95 | The playlist `#EXTM3U`, `#EXTINF:n,name`, `path` yields exactly the one channel `m3u_` + digest(url) + n with that name, number and path. |
| M3U.EntryWithoutNumberKept | MediaBrowser.Server.Implementations/LiveTv/TunerHosts/M3UTunerHost.cs:79-91 | A path line with no pending metadata, or after a whitespace-only number, adds no channel and leaves the pending pair as it was. |
| M3U.RunAppend | MediaBrowser.Server.Implementations/LiveTv/TunerHosts/M3UTunerHost.cs:60-92 | Scanning `a + b` is scanning `b` from the state reached after `a`, and a failure in `a` stops the scan. |
| M3U.IgnoredLineChangesNothing | MediaBrowser.Server.Implementations/LiveTv/TunerHosts/M3UTunerHost.cs:62-71 | Inserting a blank or header line anywhere changes neither the pending pair nor the output. |
| M3U.InfoThenPath | MediaBrowser.Server.Implementations/LiveTv/TunerHosts/M3UTunerHost.cs:73-91 | An info line with a non-blank number, followed by a path line, emits exactly one channel with that name, number and path. The pending pair is then empty. |
| M3U.SecondInfoOverwritesFirst | MediaBrowser.Server.Implementations/LiveTv/TunerHosts/M3UTunerHost.cs:73-91 | Two info lines and a path line emit one channel, carrying the second line's number and name. |
| M3U.SameNumberSameId | MediaBrowser.Server.Implementations/LiveTv/TunerHosts/M3UTunerHost.cs:81-90 | Two entries with the same number from one source get the same id. |
| M3U.RunTrailingInfo | MediaBrowser.Server.Implementations/LiveTv/TunerHosts/M3UTunerHost.cs:73-78 | An info line read last changes neither the outcome nor the channels, only the pending pair. |
| M3U.TrailingInfoDropped | MediaBrowser.Server.Implementations/LiveTv/TunerHosts/M3UTunerHost.cs:73-93 | An info line at the end of the playlist changes nothing in the result. |
| M3U.IdDeterminedByNumber | MediaBrowser.Server.Implementations/LiveTv/TunerHosts/M3UTunerHost.cs:85 | Two channels from one source have the same id exactly when they have the same number. |
| M3U.IsValidChannelId | MediaBrowser.Server.Implementations/LiveTv/TunerHosts/M3UTunerHost.cs:138-141 | An id passes exactly when it has at least four characters and they read `m3u_` in any case. So an id in the namespace (`m3u_` followed by the URL digest) of any source of this type passes. |
| M3U.ChannelIdExamples | MediaBrowser.Server.Implementations/LiveTv/TunerHosts/M3UTunerHost.cs:138-141 | `M3U_ab1` passes; `hdhr_1` and the too-short `m3u` do not. |
| M3U.DiscoveredIdIsValid | MediaBrowser.Server.Implementations/LiveTv/TunerHosts/M3UTunerHost.cs:138-141 | Every discovered id passes `IsValidChannelId` and carries its source's namespace prefix. |
| M3U.ProtocolOf | MediaBrowser.Server.Implementations/LiveTv/TunerHosts/M3UTunerHost.cs:169-181 | Http exactly when the path starts with `http` (any case). Rtmp and Rtsp exactly when it starts with `rtmp` or `rtsp`. These three are mutually exclusive, so the order of the tests does not matter. File otherwise. |
| M3U.ProtocolIgnoresCase | MediaBrowser.Server.Implementations/LiveTv/TunerHosts/M3UTunerHost.cs:170-180 | Lower-casing a path does not change its protocol. |
| M3U.ProtocolExamples | MediaBrowser.Server.Implementations/LiveTv/TunerHosts/M3UTunerHost.cs:169-181 | `rtsp://host/stream` is Rtsp, `plain.ts` is File, `RTMP://host` is Rtmp. |
| M3U.SourceFor | MediaBrowser.Server.Implementations/LiveTv/TunerHosts/M3UTunerHost.cs:183-206 | The media source has the channel's path and protocol. Its two streams are a video stream and an audio stream, both of index -1, and only the video one is interlaced. Opening and closing are not required. |
| M3U.FindChannel | MediaBrowser.Server.Implementations/LiveTv/TunerHosts/M3UTunerHost.cs:165 | The position of the first channel whose id equals the requested one ignoring case, or none exactly when no id matches. |
| M3U.GetChannelStreamMediaSources | MediaBrowser.Server.Implementations/LiveTv/TunerHosts/M3UTunerHost.cs:152-211 | Null exactly when the id lacks the `"m3u_"` + digest(url) prefix. Empty exactly when the prefix matches but no channel id does. Otherwise it is the single source built from the first matching channel. |
| M3U.GetChannelStream | MediaBrowser.Server.Implementations/LiveTv/TunerHosts/M3UTunerHost.cs:114-119 | Taking the first source fails on a null list (foreign id) and on an empty one. It succeeds exactly when the prefix and some id match, with the first match's source. |
| M3U.ResolveDiscovered | MediaBrowser.Server.Implementations/LiveTv/TunerHosts/M3UTunerHost.cs:152-210 | A discovered channel's id resolves to the source of the first channel with that id. When no earlier channel has that id, this is the channel's own path. |
| M3U.ForeignIdRefused | MediaBrowser.Server.Implementations/LiveTv/TunerHosts/M3UTunerHost.cs:154-159 | An id discovered from one source is refused (null, not an error) by a host whose URL digest has the same length and differs from it ignoring case. |
| M3U.GetTunerInfos | MediaBrowser.Server.Implementations/LiveTv/TunerHosts/M3UTunerHost.cs:97-112 | There is one tuner per enabled host whose type is `m3u` in any case, and no other. Each is Available, named "M3U Tuner", of type `m3u`, with id the digest of its URL. |
| M3U.TunerInfosConcat | MediaBrowser.Server.Implementations/LiveTv/TunerHosts/M3UTunerHost.cs:99-109 | The tuner list follows configuration order: the list for `a + b` is the list for `a` then the list for `b`. |
| M3U.GetListingsSource | MediaBrowser.Server.Implementations/LiveTv/TunerHosts/M3UTunerHost.cs:143-150 | The playlist is fetched over HTTP exactly when its URL starts with `http` in any case, and read as a file otherwise. |
| NextUp.DisplayEpisodesMembers | MediaBrowser.Server.Implementations/TV/TVSeriesManager.cs:130-132 | An episode is in the display list exactly when some season other than season 0 lists it. Seasons without an index number count. |
| NextUp.DisplayEpisodesAppend | MediaBrowser.Server.Implementations/TV/TVSeriesManager.cs:130-132 | The display list keeps season order. |
| NextUp.LastUnwatched | MediaBrowser.Server.Implementations/TV/TVSeriesManager.cs:171 | None exactly when no episode is eligible and unplayed. Otherwise the result is an eligible unplayed episode with no eligible unplayed one after it. |
| NextUp.LastUnwatchedAppend | MediaBrowser.Server.Implementations/TV/TVSeriesManager.cs:171 | The last match in `a + b` is the last match in `b` when there is one, else the last match in `a`. |
| NextUp.LastOfReversed | MediaBrowser.Server.Implementations/TV/TVSeriesManager.cs:133-171 | The last match of the newest-first list is the first match in display order. |
| NextUp.LastOfReversedBack | MediaBrowser.Server.Implementations/TV/TVSeriesManager.cs:133-171 | The last match in display order is the first match of the newest-first list. |
| NextUp.ScanBack | MediaBrowser.Server.Implementations/TV/TVSeriesManager.cs:143-164 | The candidate is the one the scan started with or an eligible unplayed episode of the list. A newly recorded last-watched episode is a played episode of the list. |
| NextUp.ScanBackInvariant | MediaBrowser.Server.Implementations/TV/TVSeriesManager.cs:143-164 | The scan never records a watched episode without a next-up one. Its next-up episode is unchanged or an eligible unplayed episode of the list. |
| NextUp.ScanUnplayed | MediaBrowser.Server.Implementations/TV/TVSeriesManager.cs:157-163 | A run of unplayed episodes leaves the scan with the oldest eligible one of the run as next up. |
| NextUp.NextUpFromNewest | MediaBrowser.Server.Implementations/TV/TVSeriesManager.cs:136-174 | A returned episode is in the list, eligible and unplayed. A "watched" result (flag false) always has an episode. A "never watched" result carries the least date. When no episode is played, the result is the last eligible unplayed episode of the newest-first list (the oldest one), the least date and flag true. |
| NextUp.GetNextUpFor | MediaBrowser.Server.Implementations/TV/TVSeriesManager.cs:127-175 | The same three facts, for the series' display episodes. When none of them is played, the result is the first eligible unplayed episode in display order, the least date and flag true. |
| NextUp.NotStarted | MediaBrowser.Server.Implementations/TV/TVSeriesManager.cs:147-152 | Suppose a played episode is reached before any eligible unplayed one. The result is then the first eligible unplayed episode in display order, the least date and flag true. |
| NextUp.Resumed | MediaBrowser.Server.Implementations/TV/TVSeriesManager.cs:147-168 | Suppose a played episode follows an eligible unplayed one, and the scan stops at the next played one. The result is then the oldest eligible unplayed episode seen, that episode's last-played date (least date if none) and flag false. |
| NextUp.FilterSeries | MediaBrowser.Server.Implementations/TV/TVSeriesManager.cs:177-187 | All series when no series id is given. Otherwise a series is kept exactly when it has that id, and never more series than there were. |
| NextUp.FilterSeriesCount | MediaBrowser.Server.Implementations/TV/TVSeriesManager.cs:177-187 | Each series is kept as often as it occurs when no id is given or it has the given id, and otherwise not at all. |
| NextUp.FilterSeriesAppend | MediaBrowser.Server.Implementations/TV/TVSeriesManager.cs:177-187 | The filter keeps the order of the series: filtering `a + b` is filtering `a`, then `b`. |
| NextUp.SeriesWithId | MediaBrowser.Server.Implementations/TV/TVSeriesManager.cs:183 | A series is kept exactly when its id is the given one. |
| NextUp.SeriesWithIdCount | MediaBrowser.Server.Implementations/TV/TVSeriesManager.cs:183 | A series with the id is kept as often as it occurs; one without it never is. |
| NextUp.SeriesWithIdAppend | MediaBrowser.Server.Implementations/TV/TVSeriesManager.cs:183 | The series with the id keep their order. |
| NextUp.Score | MediaBrowser.Server.Implementations/TV/TVSeriesManager.cs:98-115 | The score lies in -1..2. It is 2 exactly for a favourite; otherwise 1 exactly for a liked series, -1 exactly for a disliked one and 0 exactly for one without a like or dislike. |
| NextUp.Candidates | MediaBrowser.Server.Implementations/TV/TVSeriesManager.cs:93-97 | A candidate comes from exactly a series whose next-up result has an episode and is either watched or was asked for by id. There are no more candidates than series. |
| NextUp.CandidatesCount | MediaBrowser.Server.Implementations/TV/TVSeriesManager.cs:93-97 | Each candidate occurs once for every position of the series list whose series yields it, so each series yields at most one. |
| NextUp.CandidatesAppend | MediaBrowser.Server.Implementations/TV/TVSeriesManager.cs:93-97 | The candidates keep the order of the series: those of `a + b` are those of `a`, then those of `b`. |
| NextUp.Insert | MediaBrowser.Server.Implementations/TV/TVSeriesManager.cs:98-117 | Inserting into a ranked list keeps it ranked and adds exactly that candidate. |
| NextUp.RankCandidates | MediaBrowser.Server.Implementations/TV/TVSeriesManager.cs:98-117 | The result is ranked (score, then last-watched date, then premiere date, all descending) and is a permutation of the input. |
| NextUp.RankedCandidates | MediaBrowser.Server.Implementations/TV/TVSeriesManager.cs:93-117 | The candidates of the filtered series, ranked, as a permutation. |
| NextUp.CandidatesFromSeries | MediaBrowser.Server.Implementations/TV/TVSeriesManager.cs:93-97 | Every candidate's episode is an eligible unplayed display episode of one of the series. |
| NextUp.CandidateScore | MediaBrowser.Server.Implementations/TV/TVSeriesManager.cs:98-115 | Every candidate's score is the score of a series it came from. |
| NextUp.FavouritesFirst | MediaBrowser.Server.Implementations/TV/TVSeriesManager.cs:98-106 | No non-favourite is ranked before a favourite. |
| NextUp.GetNextUpEpisodes | MediaBrowser.Server.Implementations/TV/TVSeriesManager.cs:88-119 | No more episodes than selected series. Each is an eligible unplayed display episode of a selected series. The episodes are those of the ranked candidates, in that order. |
| NextUp.GetNextUpEpisodesRanked | MediaBrowser.Server.Implementations/TV/TVSeriesManager.cs:88-119 | The episodes are those of some ranked permutation of the kept candidates of the selected series, in that order. With `CandidatesCount`, each selected series contributes at most one episode. |
| NextUp.GetResult | MediaBrowser.Server.Implementations/TV/TVSeriesManager.cs:189-208 | The total is the count before paging (after the optional record limit). The items are the contiguous slice that skips the start index (0 when absent) and takes at most the limit. With no limit they run to the end. |
| NextUp.Page | MediaBrowser.Server.Implementations/TV/TVSeriesManager.cs:194-201 | The page skips the start index (0 when absent) and then takes at most the limit, or runs to the end without one: its length and each of its items. |
| NextUp.PagesConcatenate | MediaBrowser.Server.Implementations/TV/TVSeriesManager.cs:194-197 | Two adjacent pages of sizes n and m together are the page of size n + m. |
| NextUp.PagesJoin | MediaBrowser.Server.Implementations/TV/TVSeriesManager.cs:194-197 | The same for the paging step alone, for any list. |
| NextUp.NextUpPage | MediaBrowser.Server.Implementations/TV/TVSeriesManager.cs:26-65 | For one user, the total is the number of next-up episodes, at most the number of selected series, and the items are the page of those episodes. |
| NextUp.GetNextUp | MediaBrowser.Server.Implementations/TV/TVSeriesManager.cs:26-65 | It fails (argument error) exactly for an unknown user. Otherwise the total is the number of next-up episodes, at most the number of selected series. The items are the page of those episodes that starts at the start index and takes at most the limit. |
| Network.DottedPrefix | MediaBrowser.Common.Implementations/Networking/BaseNetworkManager.cs:103-113 | A rendered number and a dot start the text `x.…` exactly when the numbers agree. |
| Network.Is172From | MediaBrowser.Common.Implementations/Networking/BaseNetworkManager.cs:111-117 | The loop from round i accepts exactly when the endpoint starts with `172.n.` for some n from i to 31. |
| Network.Is172AddressPrivate | MediaBrowser.Common.Implementations/Networking/BaseNetworkManager.cs:109-120 | True exactly when the endpoint starts with `172.n.` for some n in 16..31. |
| Network.Private172 | MediaBrowser.Common.Implementations/Networking/BaseNetworkManager.cs:109-120 | An address `172.b.…` is accepted exactly when b is in 16..31. |
| Network.Starts192168 | MediaBrowser.Common.Implementations/Networking/BaseNetworkManager.cs:105 | A dotted address starts with `192.168` exactly when its first two octets are 192 and 168. |
| Network.FilterIpAddress | MediaBrowser.Common.Implementations/Networking/BaseNetworkManager.cs:77-85 | Drops exactly the addresses that begin with "169.": the prefix has no letters, so ignoring case changes nothing. |
| Network.IsInPrivateAddressSpace | MediaBrowser.Common.Implementations/Networking/BaseNetworkManager.cs:87-107 | Text starting with `172.` is private exactly when it is in the 172.16-31 block, whatever follows. Any other text is private exactly when it holds `::` or starts with `localhost` in any case, or with `127.`, `10.`, `192.168` or `169.`. So every address in the 172.16-31 block, every address beginning with `127.`, `10.` or `192.168`, and every address the link-local filter drops is private. |
| Network.Outside172BlockNotPrivate | MediaBrowser.Common.Implementations/Networking/BaseNetworkManager.cs:92-95 | `172.b.…` with b outside 16..31 is not private, even when it holds `::`. |
| Network.Outside172BlockExample | MediaBrowser.Common.Implementations/Networking/BaseNetworkManager.cs:92-95 | `172.5.0.1::` is not private. |
| Network.LocalhostExample | MediaBrowser.Common.Implementations/Networking/BaseNetworkManager.cs:92-102 | `LocalHost:8096` is private. |
| Network.OrdinalPrivatePrefixes | MediaBrowser.Common.Implementations/Networking/BaseNetworkManager.cs:91-106 | The case-insensitive tests for "172.", "127.", "10.", "192.168" and "169." are ordinal prefix tests, and none of the other four prefixes is compatible with "172.". |
| Network.PrivateDottedQuad | MediaBrowser.Common.Implementations/Networking/BaseNetworkManager.cs:87-107 | On the text of an IPv4 address, private means the first octet is 10, 127 or 169, or 172 with the second in 16..31, or the address is 192.168.x.x. |
| Network.FilterDottedQuad | MediaBrowser.Common.Implementations/Networking/BaseNetworkManager.cs:77-85 | On the text of an IPv4 address, the link-local filter rejects exactly first octet 169. |
| Network.LocalhostIsPrivate | MediaBrowser.Common.Implementations/Networking/BaseNetworkManager.cs:92-102 | Text whose first nine characters spell `localhost` in any case is private, whatever follows. |
| Network.DoubleColonIsPrivate | MediaBrowser.Common.Implementations/Networking/BaseNetworkManager.cs:92-100 | Text holding `::` is private unless it starts with `172.`. |
| Network.LocalIpAddresses | MediaBrowser.Common.Implementations/Networking/BaseNetworkManager.cs:61-75 | Every address passes the link-local filter. When some adapter address is non-loopback and passes, the result holds each such address as often as the adapters list it, none other, and starts with the first of them. Otherwise it holds exactly the host's passing addresses, and the first is the last passing one in host order. |
| Network.AdapterAddresses | MediaBrowser.Common.Implementations/Networking/BaseNetworkManager.cs:63-67 | The non-loopback adapter addresses that pass the filter, each as often as listed, the first one first. |
| Network.AdapterOrderKept | MediaBrowser.Common.Implementations/Networking/BaseNetworkManager.cs:63-71 | When both halves of the adapter list have a usable address, the addresses of the whole list are those of the first half, then those of the second. |
| Network.IsInLocalNetworkInternal | MediaBrowser.Common.Implementations/Networking/BaseNetworkManager.cs:127-184 | It fails (null-argument) exactly for a blank endpoint. A private endpoint, or one whose first four characters start an own address, is local. Without resolution it is local exactly in those cases. |
| Network.OwnAddressIsLocal | MediaBrowser.Common.Implementations/Networking/BaseNetworkManager.cs:140-150 | An own address of at least four characters is local. |
| Network.MoreAddressesMoreLocal | MediaBrowser.Common.Implementations/Networking/BaseNetworkManager.cs:140-171 | Knowing more own addresses never turns a local endpoint non-local. |
| Network.ResolutionOnlyAdds | MediaBrowser.Common.Implementations/Networking/BaseNetworkManager.cs:153-183 | An endpoint local without resolution is local with it. |
| Network.GetPort | MediaBrowser.Common.Implementations/Networking/BaseNetworkManager.cs:334-346 | It succeeds exactly for a 32-bit integer text in 0..65535, with that value, and fails with the text otherwise. |
| Network.GetPortDecimal | MediaBrowser.Common.Implementations/Networking/BaseNetworkManager.cs:334-346 | Every port written in decimal reads back as itself. |
| Network.AddressAndPort | MediaBrowser.Common.Implementations/Networking/BaseNetworkManager.cs:287-313 | Without a colon the text is the host with the default port. With two parts it fails exactly when the port text after the colon does not read as a port. A failure names the text after the last colon, which does not read as a port. When the text has a colon and is not taken whole as an IPv6 address, the port is what that text reads as; so is any port other than the default. A host part holds no colon; an unbracketed IPv6 address (three or more parts) is the whole text with the default port. |
| Network.ParseEndpoint | MediaBrowser.Common.Implementations/Networking/BaseNetworkManager.cs:272-324 | Empty-endpoint error exactly for blank text. An invalid default port (not -1, outside 0..65535) is an error. A bad-port error names the text after the last colon, which does not read as a port. A result's port is in 0..65535 and, when the text has a colon and is not an IPv6 address without a port, is what the text after the last colon reads as. A host part holds no colon. |
| Network.Parse | MediaBrowser.Common.Implementations/Networking/BaseNetworkManager.cs:259-262 | With no default port, only text holding a colon parses, and never as an unbracketed IPv6 address. |
| Network.ParseHostAndPort | MediaBrowser.Common.Implementations/Networking/BaseNetworkManager.cs:292-298 | `host:p` parses to the host and the port `p` reads as, whatever the default. When `p` does not read as a port the result is the bad-port error naming `p`. |
| Network.ParseHostAndNumber | MediaBrowser.Common.Implementations/Networking/BaseNetworkManager.cs:292-298 | `host:n` for a decimal port number `n` parses to that host and `n`, whatever the default. |
| Network.ParseBadPortExample | MediaBrowser.Common.Implementations/Networking/BaseNetworkManager.cs:292-298 | `localhost:http` is a bad-port error naming `http`, even with default port 80. |
| Network.ParseHostOnly | MediaBrowser.Common.Implementations/Networking/BaseNetworkManager.cs:294-321 | A bare host takes the default port, and is a no-port error when the default is -1. |
| Network.ParseBracketed | MediaBrowser.Common.Implementations/Networking/BaseNetworkManager.cs:303-307 | `[a:…:z]:p` parses to the bracketed address (the parts before the last, rejoined with colons) and the port `p` reads as. When `p` does not read as a port the result is the bad-port error naming `p`. |
| Network.ParseBracketedNumber | MediaBrowser.Common.Implementations/Networking/BaseNetworkManager.cs:303-307 | `[a:…:z]:n` for a decimal port number `n` parses to the bracketed address and `n`. |
| Network.ParseWholeIPv6 | MediaBrowser.Common.Implementations/Networking/BaseNetworkManager.cs:308-312 | Three or more parts, not bracketed, are an IPv6 address without a port. This takes the default, and is a no-port error when the default is -1. |
| Seqs.Where | MediaBrowser.Server.Implementations/TV/TVSeriesManager.cs:183 | An element is kept exactly when it is in the list and passes the test; never more elements than there were. |
| Seqs.WhereCount | MediaBrowser.Server.Implementations/TV/TVSeriesManager.cs:183 | A passing element is kept as often as it occurs; a failing one never is. |
| Seqs.WhereAppend | MediaBrowser.Server.Implementations/TV/TVSeriesManager.cs:183 | Filtering keeps order: filtering `a + b` is filtering `a`, then `b`. |
| Seqs.WhereFirst | MediaBrowser.Common.Implementations/Networking/BaseNetworkManager.cs:63-67 | The first element kept is the first element that passes. |
| Seqs.WhereWhere | MediaBrowser.Common.Implementations/Networking/BaseNetworkManager.cs:63-67 | Two filters in a row are one filter by both tests. |
| Seqs.SelectSome | MediaBrowser.Server.Implementations/TV/TVSeriesManager.cs:93-97 | A value is produced exactly when some element of the list maps to it; never more values than elements. |
| Seqs.SelectSomeCount | MediaBrowser.Server.Implementations/TV/TVSeriesManager.cs:93-97 | Each value occurs once for every position whose element maps to it. |
| Seqs.SelectSomeAppend | MediaBrowser.Server.Implementations/TV/TVSeriesManager.cs:93-97 | The values keep the order of the elements. |

## Left out

- Stream and file I/O. The playlist is given as its lines. Opening the listing stream (HTTP `Get` or `OpenRead`) is modelled only as the choice of `GetListingsSource`. `Validate` only opens that stream.
- The MD5 digest is a parameter: any deterministic function from a string to its digest text.
- The base tuner-host class, its channel cache and `GetChannels` are not part of this model. Resolution takes the channel list as a parameter.
- Asynchrony and cancellation tokens, which carry no logic here.
- `AsParallel` in `GetNextUpEpisodes`. The pipeline is modelled sequentially. The order among candidates whose score and both dates all tie is unspecified in the source. So the ranking contract states order and permutation, not one particular order.
- Library, user and user-data lookups (`GetAllLibraryItems`, parent folders, `GetUserData`, `IsPlayed`). The series list and each episode's played flag and dates come pre-resolved, and `Played` and `IsPlayed` are taken to agree.
- `FilterSeries` parses the series id as a `Guid` (and throws on malformed text). The model compares ids as text.
- Case-insensitive comparison folds ASCII letters only. Other scripts' case folding is not modelled.
- `DateTime` is modelled as a natural number whose least value stands for `DateTime.MinValue`.
- `IPAddress.Parse`/`TryParse`, `GetIPfromHost` and DNS. The address part of an endpoint is kept as text, so an address that would fail to parse or resolve is not an error here. Both the resolved address and the "is an IP address / is a URI" tests of `IsInLocalNetworkInternal` are folded into one optional parameter.
- Network interfaces, gateway and loopback tests, `GetIPsDefault` and the host-name lookup of `GetLocalIpAddressesFallback`. They are parameters of `LocalIpAddresses`.
- The cache `Timer`, the lock and the volatile address list in the network manager. These are concurrency concerns.
- `GetRandomUnusedPort`, `GetMacAddress`, `IsInLocalNetwork`'s logging and the exception handlers' logging. These are socket, hardware and logging calls. A failure while resolving makes the endpoint non-local, as the catch-all does.
- Strings are sequences of characters, while .NET strings are sequences of UTF-16 code units. `Length`, `Substring(0, lengthMatch)` in `IsInLocalNetworkInternal` and the other prefix tests count code units, so text outside the Basic Multilingual Plane would be measured differently.
- `values[0].StartsWith("[")` and `EndsWith("]")` in `Parse` (BaseNetworkManager.cs line 303) use the current culture. The model compares them ordinally, which agrees for these punctuation characters except where a culture ignores zero-width characters.
- The final `else` of `Parse` that throws `FormatException` (BaseNetworkManager.cs lines 315-318) is left out: the length tests before it cover every length, so it cannot be reached.
- `Int32.TryParse` is modelled for the invariant culture: optional surrounding whitespace, an optional sign and decimal digits.
- The rest of the repository, which is I/O or declarations only: persons, browser launching, application updating, native-app glue, `IHasUserData`, report item types and the dashboard scripts.

=== FILE: m3u.dfy ===
/** The M3U tuner host: discovery of a channel lineup from an Extended M3U
    playlist (the `#EXTM3U` header of section 4.3.1.1 and the `#EXTINF` tag
    of section 4.3.2.1 of RFC 8216, whose duration slot this host reads as
    the channel number), and resolution of a channel id to a playable
    media source.

    The playlist is the sequence of lines the listing stream yields; the MD5
    digest of the source URL is a parameter (`md5`), and the channel list
    handed to resolution is whatever discovery produced for the same host. */
module M3U {
  import opened Wrappers
  import opened Text

  /** The type tag this host serves, and its display name. */
  const TypeTag: string := "m3u"
  const TunerName: string := "M3U Tuner"

  /** Every channel id starts with this, then the digest of the source URL. */
  const ChannelIdPrefix: string := "m3u_"

  const HeaderTag: string := "#EXTM3U"
  const InfoTag: string := "#EXTINF:"

  /** `GetMD5().ToString("N")`: a digest of a string. Being a function it is
      deterministic, which is all the model relies on. */
  type Hasher = string -> string

  /** One configured tuner host: its source URL, type tag and switch. */
  datatype TunerHostInfo = TunerHostInfo(url: string, tunerType: string, isEnabled: bool)

  datatype Channel = Channel(id: string, name: string, number: string, path: string)

  /** The metadata of the last `#EXTINF` line, waiting for its path line. */
  datatype Pending = Pending(number: string, name: string)

  // ---------------------------------------------------------------- discovery

  /** What one playlist line means to the parser once trimmed. */
  datatype Line =
    | Blank
    | Header
    | Info(number: string, name: string)
    | InfoWithoutComma(text: string)
    | Entry(path: string)

  /** Discovery fails as a whole when an `#EXTINF` line has no comma: the
      source indexes the missing second half of the split. */
  datatype DiscoveryError = MissingChannelName(line: string)

  /** The fields of an `#EXTINF` line: `Split(':', 2).Last()`, then
      `Split(',', 2)`; the number runs from the first colon to the first
      comma after it, and the name is everything after that comma. */
  function ParseInfo(t: string): (l: Line)
    ensures l.Info? || l.InfoWithoutComma?
    ensures l.Info? ==>
              var k := IndexOf(t, ':');
              t == t[..k + 1] + l.number + "," + l.name && ',' !in l.number
    ensures l.InfoWithoutComma? ==> l.text == t && ',' !in t[IndexOf(t, ':') + 1..]
  {
    var afterColon := SplitFirst(t, ':');
    var rest := afterColon[|afterColon| - 1];
    LastOfSplitFirst(t, ':');
    var parts := SplitFirst(rest, ',');
    if |parts| < 2 then InfoWithoutComma(t)
    else
      InfoFields(t, IndexOf(t, ':'), parts[0], parts[1]);
      Info(parts[0], parts[1])
  }

  lemma LastOfSplitFirst(t: string, c: char)
    ensures var parts := SplitFirst(t, c); parts[|parts| - 1] == t[IndexOf(t, c) + 1..]
  {
    var parts := SplitFirst(t, c);
    if |parts| == 2 {
      IndexOfAfter(parts[0], c, parts[1]);
      assert t[|parts[0]| + 1..] == parts[1];
    } else {
      assert t[0..] == t;
    }
  }

  lemma InfoFields(t: string, k: int, number: string, name: string)
    requires -1 <= k < |t|
    requires t[k + 1..] == number + [','] + name
    ensures t == t[..k + 1] + number + "," + name
  {
    assert t == t[..k + 1] + t[k + 1..];
  }

  /** Classifies a line: blank after trimming, the header, an `#EXTINF`
      line, or anything else, kept whole (trimmed) as a path. */
  function Classify(raw: string): (l: Line)
    ensures l.Blank? <==> Trim(raw) == []
    ensures l.Header? ==> StartsWithIgnoreCase(Trim(raw), HeaderTag)
    ensures l.Info? || l.InfoWithoutComma? ==>
              && !StartsWithIgnoreCase(Trim(raw), HeaderTag)
              && StartsWithIgnoreCase(Trim(raw), InfoTag)
              && l == ParseInfo(Trim(raw))
    ensures l.Entry? ==>
              && l.path == Trim(raw) && l.path != []
              && !StartsWithIgnoreCase(l.path, HeaderTag) && !StartsWithIgnoreCase(l.path, InfoTag)
  {
    var t := Trim(raw);
    if IsNullOrWhiteSpace(t) then Blank
    else if StartsWithIgnoreCase(t, HeaderTag) then Header
    else if StartsWithIgnoreCase(t, InfoTag) then ParseInfo(t)
    else Entry(t)
  }

  /** The field split inverts rendering: text without a colon, a colon, a
      comma-free number, a comma and a name read back as that number and name. */
  lemma ParseRenderedInfo(head: string, number: string, name: string)
    requires ':' !in head && ',' !in number
    ensures ParseInfo(head + ":" + number + "," + name) == Info(number, name)
  {
    var rest := number + [','] + name;
    var line := head + [':'] + rest;
    assert head + ":" + number + "," + name == line;
    SplitFirstAround(head, ':', rest);
    SplitFirstAround(number, ',', name);
  }

  /** What a tag equal to `#EXTINF` in any case looks like. */
  lemma InfoTagShape(tag: string, x: string)
    requires EqualsIgnoreCase(tag, "#EXTINF")
    ensures |tag| == 7 && tag[0] == '#' && ':' !in tag
    ensures StartsWithIgnoreCase(tag + ":" + x, InfoTag)
    ensures !StartsWithIgnoreCase(tag + ":" + x, HeaderTag)
  {
    var line := tag + ":" + x;
    assert |Lower(tag)| == 7;
    assert forall i :: 0 <= i < 7 ==> LowerChar(tag[i]) == "#extinf"[i];
    assert line[..8] == tag + ":";
    assert Lower(line[..8]) == Lower(tag) + ":";
    assert line[..7] == tag;
    assert Lower(tag)[4] != Lower(HeaderTag)[4];
  }

  /** Parsing inverts rendering: an `#EXTINF` line (tag in any case), a
      comma-free number and a name read back as that number and name. */
  lemma ClassifyRenderedInfo(tag: string, number: string, name: string)
    requires EqualsIgnoreCase(tag, "#EXTINF") && ',' !in number
    requires name != [] ==> !IsWhiteSpace(name[|name| - 1])
    ensures Classify(tag + ":" + number + "," + name) == Info(number, name)
  {
    var line := tag + ":" + number + "," + name;
    InfoTagShape(tag, number + "," + name);
    assert line == tag + ":" + (number + "," + name);
    assert line[0] == '#';
    TrimByTrimmed(line, IsWhiteSpace);
    ParseRenderedInfo(tag, number, name);
  }

  /** A trimmed line that starts with `#EXTM3U` in any case is a header. */
  lemma ClassifyHeaderLine(t: string)
    requires StartsWithIgnoreCase(t, HeaderTag)
    requires !IsWhiteSpace(t[0]) && !IsWhiteSpace(t[|t| - 1])
    ensures Classify(t) == Header
  {
    TrimByTrimmed(t, IsWhiteSpace);
  }

  /** A trimmed line that does not start with `#` is always a path line. */
  lemma ClassifyPathLine(t: string)
    requires t != [] && t[0] != '#'
    requires !IsWhiteSpace(t[0]) && !IsWhiteSpace(t[|t| - 1])
    ensures Classify(t) == Entry(t)
  {
    TrimByTrimmed(t, IsWhiteSpace);
    if |t| >= |HeaderTag| {
      assert Lower(t[..|HeaderTag|])[0] != Lower(HeaderTag)[0];
    }
    if |t| >= |InfoTag| {
      assert Lower(t[..|InfoTag|])[0] != Lower(InfoTag)[0];
    }
  }

  /** Any other trimmed line, other `#` tags such as `#EXTVLCOPT` included,
      is a path line. */
  lemma ClassifyOtherLine(t: string)
    requires t != [] && !IsWhiteSpace(t[0]) && !IsWhiteSpace(t[|t| - 1])
    requires !StartsWithIgnoreCase(t, HeaderTag) && !StartsWithIgnoreCase(t, InfoTag)
    ensures Classify(t) == Entry(t)
  {
    TrimByTrimmed(t, IsWhiteSpace);
  }

  /** The state carried from line to line, and the channels emitted so far. */
  datatype Scan = Scan(pending: Option<Pending>, channels: seq<Channel>)

  /** How many pending entries a state holds (0 or 1). */
  function Held(s: Scan): nat {
    if s.pending.Some? then 1 else 0
  }

  /** A channel as discovery builds it from pending metadata and a path line. */
  function MakeChannel(urlHash: string, p: Pending, path: string): Channel {
    Channel(ChannelIdPrefix + urlHash + p.number, p.name, p.number, path)
  }

  /** What every discovered channel satisfies: its id is the namespace of its
      source followed by its number, its number is not blank, and its path is
      a trimmed line that the parser takes as a path. */
  predicate Discovered(urlHash: string, c: Channel) {
    && c.id == ChannelIdPrefix + urlHash + c.number
    && !IsNullOrWhiteSpace(c.number)
    && Classify(c.path) == Entry(c.path)
  }

  /** The playlist as the parser sees it, line by line. */
  function ClassifyAll(raws: seq<string>): (ls: seq<Line>)
    ensures |ls| == |raws|
    ensures forall i :: 0 <= i < |raws| ==> ls[i] == Classify(raws[i])
  {
    seq(|raws|, i requires 0 <= i < |raws| => Classify(raws[i]))
  }

  /** Classifying a playlist in two parts is classifying it whole. */
  lemma ClassifyAllAppend(a: seq<string>, b: seq<string>)
    ensures ClassifyAll(a + b) == ClassifyAll(a) + ClassifyAll(b)
  {
    assert forall i :: 0 <= i < |a + b| ==> ClassifyAll(a + b)[i] == (ClassifyAll(a) + ClassifyAll(b))[i] by {
      forall i | 0 <= i < |a + b|
        ensures ClassifyAll(a + b)[i] == (ClassifyAll(a) + ClassifyAll(b))[i]
      {
        if i < |a| {
          assert (a + b)[i] == a[i];
        } else {
          assert (a + b)[i] == b[i - |a|];
        }
      }
    }
  }

  /** A line the parser can produce: a path line reads back as itself. */
  predicate Parsed(l: Line) {
    l.Entry? ==> Classify(l.path) == l
  }

  /** Every classified line is one the parser can produce. */
  lemma ClassifyAllParsed(raws: seq<string>)
    ensures forall i :: 0 <= i < |raws| ==> Parsed(ClassifyAll(raws)[i])
  {
    forall i | 0 <= i < |raws|
      ensures Parsed(ClassifyAll(raws)[i])
    {
      if Classify(raws[i]).Entry? {
        TrimIdempotent(raws[i]);
      }
    }
  }

  /** The number of `#EXTINF` lines (with a comma) in a playlist. */
  function InfoCount(ls: seq<Line>): nat {
    if ls == [] then 0
    else (if ls[0].Info? then 1 else 0) + InfoCount(ls[1..])
  }

  /** One iteration of the read loop: blank and header lines are skipped,
      an `#EXTINF` line replaces the pending metadata, and any other line
      becomes the path of a channel when the pending number is not blank
      (and is dropped, keeping the pending metadata, otherwise). */
  function Step(urlHash: string, s: Scan, l: Line): (r: Result<Scan, DiscoveryError>)
    ensures r.Failure? <==> l.InfoWithoutComma?
    ensures r.Success? ==> s.channels <= r.value.channels && |r.value.channels| <= |s.channels| + 1
    ensures r.Success? && |r.value.channels| > |s.channels| ==>
              && l.Entry? && s.pending.Some? && r.value.pending.None?
              && r.value.channels[|s.channels|].path == l.path
  {
    match l
    case Blank => Success(s)
    case Header => Success(s)
    case InfoWithoutComma(t) => Failure(MissingChannelName(t))
    case Info(number, name) => Success(s.(pending := Some(Pending(number, name))))
    case Entry(path) =>
      if s.pending.Some? && !IsNullOrWhiteSpace(s.pending.value.number) then
        Success(Scan(None, s.channels + [MakeChannel(urlHash, s.pending.value, path)]))
      else
        Success(s)
  }

  /** One line fails exactly when it is an `#EXTINF` line without a comma;
      otherwise it appends at most one channel, a well-formed one whose path
      is the line's, and only by consuming the pending metadata. */
  lemma StepInvariant(urlHash: string, s: Scan, l: Line)
    requires Parsed(l)
    ensures Step(urlHash, s, l).Failure? <==> l.InfoWithoutComma?
    ensures Step(urlHash, s, l).Success? ==>
              var s' := Step(urlHash, s, l).value;
              && s.channels <= s'.channels
              && |s'.channels| <= |s.channels| + 1
              && (|s'.channels| > |s.channels| ==>
                    && s.pending.Some? && s'.pending.None?
                    && s'.channels[|s.channels|].path == l.path
                    && Discovered(urlHash, s'.channels[|s.channels|]))
              && |s'.channels| - |s.channels| + Held(s') <= Held(s) + (if l.Info? then 1 else 0)
  {
  }

  /** A path line after a whitespace-only number, or with nothing pending,
      is dropped; the pending metadata stays for the next path line. */
  lemma EntryWithoutNumberKept(urlHash: string, pending: Option<Pending>, cs: seq<Channel>, path: string)
    requires pending.None? || IsNullOrWhiteSpace(pending.value.number)
    ensures Step(urlHash, Scan(pending, cs), Entry(path)) == Success(Scan(pending, cs))
  {
  }

  /** The read loop from state `s` over the remaining lines. */
  function Run(urlHash: string, s: Scan, ls: seq<Line>): (r: Result<Scan, DiscoveryError>)
    ensures r.Success? ==> s.channels <= r.value.channels && |r.value.channels| <= |s.channels| + |ls|
    decreases |ls|
  {
    if ls == [] then Success(s)
    else
      match Step(urlHash, s, ls[0])
      case Failure(e) => Failure(e)
      case Success(s') => Run(urlHash, s', ls[1..])
  }

  /** What the read loop guarantees: it fails exactly when some `#EXTINF`
      line lacks a comma; otherwise it only appends, every channel it appends
      is well formed, and it appends no more channels than it reads
      `#EXTINF` lines (counting the entry it may have been holding). */
  lemma {:induction false} RunInvariant(urlHash: string, s: Scan, ls: seq<Line>)
    requires forall i :: 0 <= i < |ls| ==> Parsed(ls[i])
    ensures Run(urlHash, s, ls).Failure? <==> exists i :: 0 <= i < |ls| && ls[i].InfoWithoutComma?
    ensures Run(urlHash, s, ls).Success? ==>
              var s' := Run(urlHash, s, ls).value;
              && s.channels <= s'.channels
              && (forall k :: |s.channels| <= k < |s'.channels| ==> Discovered(urlHash, s'.channels[k]))
              && |s'.channels| - |s.channels| + Held(s') <= Held(s) + InfoCount(ls)
    decreases |ls|
  {
    if ls != [] {
      StepInvariant(urlHash, s, ls[0]);
      match Step(urlHash, s, ls[0])
      case Failure(_) =>
      case Success(s1) =>
        assert forall i :: 0 < i < |ls| ==> ls[i] == ls[1..][i - 1];
        assert Run(urlHash, s, ls) == Run(urlHash, s1, ls[1..]);
        RunInvariant(urlHash, s1, ls[1..]);
    }
  }

  /** `GetChannelsInternal`: the channels of a playlist, in file order. */
  function GetChannelsInternal(md5: Hasher, info: TunerHostInfo, lines: seq<string>)
    : (r: Result<seq<Channel>, DiscoveryError>)
    ensures r.Failure? <==> exists i :: 0 <= i < |lines| && Classify(lines[i]).InfoWithoutComma?
    ensures r.Success? ==> |r.value| <= InfoCount(ClassifyAll(lines))
    ensures r.Success? ==> forall c :: c in r.value ==> Discovered(md5(info.url), c)
  {
    var ls := ClassifyAll(lines);
    ClassifyAllParsed(lines);
    RunInvariant(md5(info.url), Scan(None, []), ls);
    match Run(md5(info.url), Scan(None, []), ls)
    case Failure(e) => Failure(e)
    case Success(s) => Success(s.channels)
  }

  /** Reading a playlist in two parts is reading it whole: what the first
      part emits comes first, in order, and its final state carries over. */
  lemma {:induction false} RunAppend(urlHash: string, s: Scan, a: seq<Line>, b: seq<Line>)
    ensures Run(urlHash, s, a + b) ==
              match Run(urlHash, s, a)
              case Failure(e) => Failure(e)
              case Success(s') => Run(urlHash, s', b)
    decreases |a|
  {
    if a == [] {
      assert a + b == b;
    } else {
      var ab := a + b;
      assert ab[0] == a[0];
      assert ab[1..] == a[1..] + b;
      match Step(urlHash, s, a[0])
      case Failure(_) =>
      case Success(s') => RunAppend(urlHash, s', a[1..], b);
    }
  }

  /** `Run` over a line followed by more lines. */
  lemma RunCons(urlHash: string, s: Scan, l: Line, rest: seq<Line>)
    ensures Run(urlHash, s, [l] + rest) ==
              if Step(urlHash, s, l).Failure? then Failure(Step(urlHash, s, l).error)
              else Run(urlHash, Step(urlHash, s, l).value, rest)
  {
    assert ([l] + rest)[0] == l;
    assert ([l] + rest)[1..] == rest;
  }

  /** Blank lines and header lines change neither the state nor the output,
      wherever they occur. */
  lemma IgnoredLineChangesNothing(urlHash: string, s: Scan, a: seq<Line>, l: Line, b: seq<Line>)
    requires l.Blank? || l.Header?
    ensures Run(urlHash, s, a + [l] + b) == Run(urlHash, s, a + b)
  {
    RunAppend(urlHash, s, a, [l] + b);
    RunAppend(urlHash, s, a, b);
    assert a + [l] + b == a + ([l] + b);
    match Run(urlHash, s, a)
    case Failure(_) =>
    case Success(s') => RunCons(urlHash, s', l, b);
  }

  /** An `#EXTINF` line with a usable number followed by a path line emits
      exactly one channel, built from the two, and leaves nothing pending,
      whatever was pending before. */
  lemma InfoThenPath(urlHash: string, s: Scan, number: string, name: string, path: string, rest: seq<Line>)
    requires !IsNullOrWhiteSpace(number)
    ensures Run(urlHash, s, [Info(number, name), Entry(path)] + rest) ==
              Run(urlHash, Scan(None, s.channels + [Channel(ChannelIdPrefix + urlHash + number, name, number, path)]), rest)
  {
    assert [Info(number, name), Entry(path)] + rest == [Info(number, name)] + ([Entry(path)] + rest);
    RunInfoFirst(urlHash, s, number, name, [Entry(path)] + rest);
    RunEntryFirst(urlHash, Pending(number, name), s.channels, path, rest);
  }

  /** An `#EXTINF` line replaces whatever was pending. */
  lemma RunInfoFirst(urlHash: string, s: Scan, number: string, name: string, rest: seq<Line>)
    ensures Run(urlHash, s, [Info(number, name)] + rest)
         == Run(urlHash, Scan(Some(Pending(number, name)), s.channels), rest)
  {
    RunCons(urlHash, s, Info(number, name), rest);
  }

  /** A path line after a usable number emits the channel and clears the
      pending metadata. */
  lemma RunEntryFirst(urlHash: string, p: Pending, cs: seq<Channel>, path: string, rest: seq<Line>)
    requires !IsNullOrWhiteSpace(p.number)
    ensures Run(urlHash, Scan(Some(p), cs), [Entry(path)] + rest)
         == Run(urlHash, Scan(None, cs + [MakeChannel(urlHash, p, path)]), rest)
  {
    RunCons(urlHash, Scan(Some(p), cs), Entry(path), rest);
  }

  /** Two `#EXTINF` lines and then a path line give one channel, built from
      the second `#EXTINF` line; the first is overwritten without a trace. */
  lemma SecondInfoOverwritesFirst(urlHash: string, s: Scan, number1: string, name1: string,
                                  number2: string, name2: string, path: string)
    requires !IsNullOrWhiteSpace(number2)
    ensures Run(urlHash, s, [Info(number1, name1), Info(number2, name2), Entry(path)]) ==
              Success(Scan(None, s.channels + [Channel(ChannelIdPrefix + urlHash + number2, name2, number2, path)]))
  {
    var s1 := s.(pending := Some(Pending(number1, name1)));
    InfoThenPath(urlHash, s1, number2, name2, path, []);
    assert [Info(number2, name2), Entry(path)] + [] == [Info(number2, name2), Entry(path)];
    RunCons(urlHash, s, Info(number1, name1), [Info(number2, name2), Entry(path)]);
  }

  /** A header and two channels that carry the same number: the read loop
      emits both, in file order, under one and the same id, because the id
      is the namespace followed by the number. */
  lemma SameNumberSameId(urlHash: string, number: string, name1: string, path1: string,
                         name2: string, path2: string)
    requires !IsNullOrWhiteSpace(number)
    ensures var id := ChannelIdPrefix + urlHash + number;
            Run(urlHash, Scan(None, []),
                [Header, Info(number, name1), Entry(path1), Info(number, name2), Entry(path2)])
            == Success(Scan(None, [Channel(id, name1, number, path1), Channel(id, name2, number, path2)]))
  {
    var id := ChannelIdPrefix + urlHash + number;
    var a, b := Channel(id, name1, number, path1), Channel(id, name2, number, path2);
    var l1, e1, l2, e2 := Info(number, name1), Entry(path1), Info(number, name2), Entry(path2);
    InfoThenPath(urlHash, Scan(None, [a]), number, name2, path2, []);
    InfoThenPath(urlHash, Scan(None, []), number, name1, path1, [l2, e2]);
    RunCons(urlHash, Scan(None, []), Header, [l1, e1, l2, e2]);
    assert [l1, e1] + [l2, e2] == [l1, e1, l2, e2];
    assert [l2, e2] + [] == [l2, e2];
    assert [Header] + [l1, e1, l2, e2] == [Header, l1, e1, l2, e2];
    assert [] + [a] == [a];
    assert [a] + [b] == [a, b];
    assert Run(urlHash, Scan(None, [a, b]), []) == Success(Scan(None, [a, b]));
  }

  /** An info line read last only sets the pending pair. */
  lemma RunTrailingInfo(urlHash: string, s: Scan, ls: seq<Line>, l: Line)
    requires l.Info?
    ensures Run(urlHash, s, ls + [l]).Failure? <==> Run(urlHash, s, ls).Failure?
    ensures Run(urlHash, s, ls + [l]).Failure? ==> Run(urlHash, s, ls + [l]).error == Run(urlHash, s, ls).error
    ensures Run(urlHash, s, ls + [l]).Success? ==>
              Run(urlHash, s, ls + [l]).value.channels == Run(urlHash, s, ls).value.channels
  {
    RunAppend(urlHash, s, ls, [l]);
  }

  /** An `#EXTINF` line at the end of the playlist produces nothing. */
  lemma TrailingInfoDropped(md5: Hasher, info: TunerHostInfo, lines: seq<string>, last: string)
    requires Classify(last).Info?
    ensures GetChannelsInternal(md5, info, lines + [last]) == GetChannelsInternal(md5, info, lines)
  {
    var ls, l := ClassifyAll(lines), Classify(last);
    assert ClassifyAll(lines + [last]) == ls + [l] by {
      ClassifyAllAppend(lines, [last]);
      ClassifyOne(last, l);
    }
    RunTrailingInfo(md5(info.url), Scan(None, []), ls, l);
  }

  /** Within one source, two discovered channels share an id exactly when
      they share a number: ids are a function of (source, number). */
  lemma IdDeterminedByNumber(urlHash: string, c1: Channel, c2: Channel)
    requires Discovered(urlHash, c1) && Discovered(urlHash, c2)
    ensures c1.id == c2.id <==> c1.number == c2.number
  {
    var p := ChannelIdPrefix + urlHash;
    if c1.id == c2.id {
      assert c1.number == c1.id[|p|..];
      assert c2.number == c2.id[|p|..];
    }
  }

  /** One channel as a playlist writer puts it down: the number in the
      duration slot of its `#EXTINF` line, the display name after the comma,
      and the path on the next line. */
  datatype PlaylistItem = PlaylistItem(number: string, name: string, path: string)

  /** An item whose two lines read back as written: a number without a comma
      that is not blank, a name that ends in no white space, and a trimmed
      path that does not start with `#`. */
  predicate Writable(it: PlaylistItem) {
    && ',' !in it.number && !IsNullOrWhiteSpace(it.number)
    && (it.name != [] ==> !IsWhiteSpace(it.name[|it.name| - 1]))
    && it.path != [] && it.path[0] != '#'
    && !IsWhiteSpace(it.path[0]) && !IsWhiteSpace(it.path[|it.path| - 1])
  }

  /** The `#EXTINF` line of an item. */
  function InfoLine(it: PlaylistItem): string {
    InfoTag + it.number + "," + it.name
  }

  /** The two lines of each item, in order. */
  function ItemLines(items: seq<PlaylistItem>): (r: seq<string>)
    ensures |r| == 2 * |items|
  {
    if items == [] then []
    else [InfoLine(items[0]), items[0].path] + ItemLines(items[1..])
  }

  /** A playlist: the header, then the lines of every item. */
  function Playlist(items: seq<PlaylistItem>): seq<string> {
    [HeaderTag] + ItemLines(items)
  }

  /** What the items' lines mean to the parser. */
  function ItemsParsed(items: seq<PlaylistItem>): seq<Line> {
    if items == [] then []
    else [Info(items[0].number, items[0].name), Entry(items[0].path)] + ItemsParsed(items[1..])
  }

  /** The channels a source with digest `urlHash` lists for the items. */
  function ChannelsOf(urlHash: string, items: seq<PlaylistItem>): (r: seq<Channel>)
    ensures |r| == |items|
  {
    if items == [] then []
    else [MakeChannel(urlHash, Pending(items[0].number, items[0].name), items[0].path)] + ChannelsOf(urlHash, items[1..])
  }

  /** The header line classifies as the header. */
  lemma HeaderClassifies()
    ensures Classify(HeaderTag) == Header
  {
    ClassifyHeaderLine(HeaderTag);
  }

  /** The two lines of a written item classify as its info and path lines. */
  lemma ClassifyItem(it: PlaylistItem)
    requires Writable(it)
    ensures ClassifyAll([InfoLine(it), it.path]) == [Info(it.number, it.name), Entry(it.path)]
  {
    InfoLineClassifies(it);
    PathClassifies(it);
    ClassifyPair(InfoLine(it), it.path, Info(it.number, it.name), Entry(it.path));
  }

  /** Two lines classify one by one. */
  lemma ClassifyPair(a: string, b: string, x: Line, y: Line)
    requires Classify(a) == x && Classify(b) == y
    ensures ClassifyAll([a, b]) == [x, y]
  {
    ClassifyAllAppend([a], [b]);
    ClassifyOne(a, x);
    ClassifyOne(b, y);
    Singles(a, b);
    Singles(x, y);
  }

  /** Two one-element sequences make a pair. */
  lemma Singles<T>(x: T, y: T)
    ensures [x] + [y] == [x, y]
  {
  }

  /** The `#EXTINF` line of a written item reads back as its number and name. */
  lemma InfoLineClassifies(it: PlaylistItem)
    requires Writable(it)
    ensures Classify(InfoLine(it)) == Info(it.number, it.name)
  {
    assert InfoLine(it) == "#EXTINF" + ":" + it.number + "," + it.name;
    ClassifyRenderedInfo("#EXTINF", it.number, it.name);
  }

  /** The path line of a written item is an entry line. */
  lemma PathClassifies(it: PlaylistItem)
    requires Writable(it)
    ensures Classify(it.path) == Entry(it.path)
  {
    ClassifyPathLine(it.path);
  }

  /** Written items classify as their info and path lines. */
  lemma {:induction false} ClassifyItems(items: seq<PlaylistItem>)
    requires forall k :: 0 <= k < |items| ==> Writable(items[k])
    ensures ClassifyAll(ItemLines(items)) == ItemsParsed(items)
    decreases |items|
  {
    if items != [] {
      ClassifyItem(items[0]);
      ClassifyItems(items[1..]);
      ClassifyAllAppend([InfoLine(items[0]), items[0].path], ItemLines(items[1..]));
    }
  }

  /** Reading the items' lines from a state with nothing pending appends
      their channels, in order, and leaves nothing pending. */
  lemma {:induction false} RunItems(urlHash: string, cs: seq<Channel>, items: seq<PlaylistItem>)
    requires forall k :: 0 <= k < |items| ==> !IsNullOrWhiteSpace(items[k].number)
    ensures Run(urlHash, Scan(None, cs), ItemsParsed(items)) == Success(Scan(None, cs + ChannelsOf(urlHash, items)))
    decreases |items|
  {
    if items == [] {
      assert cs + [] == cs;
    } else {
      var it := items[0];
      var c := MakeChannel(urlHash, Pending(it.number, it.name), it.path);
      InfoThenPath(urlHash, Scan(None, cs), it.number, it.name, it.path, ItemsParsed(items[1..]));
      RunItems(urlHash, cs + [c], items[1..]);
      assert (cs + [c]) + ChannelsOf(urlHash, items[1..]) == cs + ChannelsOf(urlHash, items);
    }
  }

  /** Discovery reads back what a playlist writer wrote: the channels of the
      items, in order, each under the namespace of its source. */
  lemma PlaylistRoundTrip(md5: Hasher, info: TunerHostInfo, items: seq<PlaylistItem>)
    requires forall k :: 0 <= k < |items| ==> Writable(items[k])
    ensures GetChannelsInternal(md5, info, Playlist(items)) == Success(ChannelsOf(md5(info.url), items))
  {
    ClassifyPlaylist(items);
    RunPlaylist(md5(info.url), items);
  }

  /** A one-entry playlist yields exactly its channel. */
  lemma OneChannelPlaylist(md5: Hasher, info: TunerHostInfo, number: string, name: string, path: string)
    requires Writable(PlaylistItem(number, name, path))
    ensures GetChannelsInternal(md5, info, ["#EXTM3U", "#EXTINF:" + number + "," + name, path])
         == Success([Channel("m3u_" + md5(info.url) + number, name, number, path)])
  {
    var it := PlaylistItem(number, name, path);
    assert Playlist([it]) == ["#EXTM3U", "#EXTINF:" + number + "," + name, path] by {
      assert ItemLines([it]) == [InfoLine(it), path] + ItemLines([]);
    }
    assert ChannelsOf(md5(info.url), [it]) == [Channel("m3u_" + md5(info.url) + number, name, number, path)] by {
      assert ChannelsOf(md5(info.url), [it]) == [MakeChannel(md5(info.url), Pending(number, name), path)] + ChannelsOf(md5(info.url), []);
    }
    PlaylistRoundTrip(md5, info, [it]);
  }

  /** A written playlist classifies as the header and the items' lines. */
  lemma ClassifyPlaylist(items: seq<PlaylistItem>)
    requires forall k :: 0 <= k < |items| ==> Writable(items[k])
    ensures ClassifyAll(Playlist(items)) == [Header] + ItemsParsed(items)
  {
    ClassifyAllAppend([HeaderTag], ItemLines(items));
    HeaderClassifies();
    ClassifyOne(HeaderTag, Header);
    ClassifyItems(items);
  }

  /** A single line classifies as itself. */
  lemma ClassifyOne(a: string, x: Line)
    requires Classify(a) == x
    ensures ClassifyAll([a]) == [x]
  {
    assert ClassifyAll([a])[0] == x;
  }

  /** Reading the header and the items' lines emits one channel per item. */
  lemma RunPlaylist(urlHash: string, items: seq<PlaylistItem>)
    requires forall k :: 0 <= k < |items| ==> !IsNullOrWhiteSpace(items[k].number)
    ensures Run(urlHash, Scan(None, []), [Header] + ItemsParsed(items))
         == Success(Scan(None, ChannelsOf(urlHash, items)))
  {
    RunCons(urlHash, Scan(None, []), Header, ItemsParsed(items));
    RunItems(urlHash, [], items);
    assert [] + ChannelsOf(urlHash, items) == ChannelsOf(urlHash, items);
  }

  // ---------------------------------------------------------------- resolution

  /** `IsValidChannelId`: the id carries this host's type prefix. It passes
      exactly when its first four characters are `m3u_` in any case, and an id
      in the namespace of any source of this type passes. */
  function IsValidChannelId(channelId: string): (r: bool)
    ensures r <==> |channelId| >= 4 && LowerChar(channelId[0]) == 'm' && channelId[1] == '3'
                   && LowerChar(channelId[2]) == 'u' && channelId[3] == '_'
    ensures forall urlHash :: StartsWithIgnoreCase(channelId, ChannelIdPrefix + urlHash) ==> r
  {
    assert Lower(ChannelIdPrefix) == "m3u_";
    assert |channelId| >= 4 ==> Lower(channelId[..4]) == [LowerChar(channelId[0]), LowerChar(channelId[1]),
                                                          LowerChar(channelId[2]), LowerChar(channelId[3])];
    assert forall urlHash :: StartsWithIgnoreCase(channelId, ChannelIdPrefix + urlHash) ==>
                               StartsWithIgnoreCase(channelId, ChannelIdPrefix) by {
      forall urlHash | StartsWithIgnoreCase(channelId, ChannelIdPrefix + urlHash)
        ensures StartsWithIgnoreCase(channelId, ChannelIdPrefix)
      {
        StartsWithIgnoreCaseShorter(channelId, ChannelIdPrefix, urlHash);
      }
    }
    StartsWithIgnoreCase(channelId, ChannelIdPrefix)
  }

  /** Every discovered id passes both the type check and the namespace check
      of its own source. */
  lemma DiscoveredIdIsValid(urlHash: string, c: Channel)
    requires Discovered(urlHash, c)
    ensures IsValidChannelId(c.id)
    ensures StartsWithIgnoreCase(c.id, ChannelIdPrefix + urlHash)
  {
    StartsWithIgnoreCaseAppend(ChannelIdPrefix + urlHash, c.number);
    StartsWithIgnoreCaseShorter(c.id, ChannelIdPrefix, urlHash);
  }

  /** The type check ignores case and rejects other hosts' ids. */
  lemma ChannelIdExamples()
    ensures IsValidChannelId("M3U_ab1")
    ensures !IsValidChannelId("hdhr_1")
    ensures !IsValidChannelId("m3u")
  {
  }

  datatype Protocol = File | Http | Rtmp | Rtsp

  /** The protocol of a channel path, from its scheme prefix in any case.
      The three prefixes exclude one another, so the order the source tests
      them in does not matter. */
  function ProtocolOf(path: string): (p: Protocol)
    ensures p == Http <==> StartsWithIgnoreCase(path, "http")
    ensures p == Rtmp <==> StartsWithIgnoreCase(path, "rtmp")
    ensures p == Rtsp <==> StartsWithIgnoreCase(path, "rtsp")
  {
    if StartsWithIgnoreCase(path, "http") then Http
    else if StartsWithIgnoreCase(path, "rtmp") then
      assert Lower(path[..4])[0] == 'r';
      assert Lower(path[..4])[2] == 'm';
      Rtmp
    else if StartsWithIgnoreCase(path, "rtsp") then
      assert Lower(path[..4])[0] == 'r';
      assert Lower(path[..4])[2] == 's';
      Rtsp
    else File
  }

  /** The protocol does not depend on the case of the path. */
  lemma ProtocolIgnoresCase(path: string)
    ensures ProtocolOf(Lower(path)) == ProtocolOf(path)
  {
    StartsWithIgnoreCaseLower(path, "http");
    StartsWithIgnoreCaseLower(path, "rtmp");
    StartsWithIgnoreCaseLower(path, "rtsp");
  }

  /** The protocol of a path depends only on its first four characters. */
  lemma ProtocolOfHead(path: string, head: string)
    requires |path| >= 4 && Lower(path[..4]) == head
    ensures ProtocolOf(path) == (if head == "http" then Http else if head == "rtmp" then Rtmp
                                 else if head == "rtsp" then Rtsp else File)
  {
  }

  lemma RtspExample()
    ensures ProtocolOf("rtsp://host/stream") == Rtsp
  {
    assert Lower("rtsp://host/stream"[..4]) == "rtsp";
    ProtocolOfHead("rtsp://host/stream", "rtsp");
  }

  lemma FileExample()
    ensures ProtocolOf("plain.ts") == File
  {
    assert Lower("plain.ts"[..4]) == "plai";
    ProtocolOfHead("plain.ts", "plai");
  }

  lemma RtmpExample()
    ensures ProtocolOf("RTMP://host") == Rtmp
  {
    assert Lower("RTMP://host"[..4]) == "rtmp";
    ProtocolOfHead("RTMP://host", "rtmp");
  }

  /** A stream URL, a bare file name and an upper-case scheme. */
  lemma ProtocolExamples()
    ensures ProtocolOf("rtsp://host/stream") == Rtsp
    ensures ProtocolOf("plain.ts") == File
    ensures ProtocolOf("RTMP://host") == Rtmp
  {
    RtspExample();
    FileExample();
    RtmpExample();
  }

  datatype StreamType = Video | Audio

  datatype MediaStream = MediaStream(streamType: StreamType, index: int, isInterlaced: bool)

  datatype MediaSource = MediaSource(
    path: string,
    protocol: Protocol,
    streams: seq<MediaStream>,
    requiresOpening: bool,
    requiresClosing: bool)

  /** The index the source gives a stream whose position in the container is
      not known. */
  const UnknownIndex: int := -1

  /** The media source built for a channel path: a video and an audio stream
      of unknown index, no open/close handshake. */
  function SourceFor(path: string): (m: MediaSource)
    ensures m.path == path && m.protocol == ProtocolOf(path)
    ensures |m.streams| == 2
    ensures m.streams[0].streamType == Video && m.streams[1].streamType == Audio
    ensures m.streams[0].isInterlaced && !m.streams[1].isInterlaced
    ensures forall k :: 0 <= k < |m.streams| ==> m.streams[k].index == UnknownIndex
    ensures !m.requiresOpening && !m.requiresClosing
  {
    MediaSource(path, ProtocolOf(path),
      [MediaStream(Video, UnknownIndex, true), MediaStream(Audio, UnknownIndex, false)],
      false, false)
  }

  /** `k` is the position of the first channel whose id equals `id` ignoring case. */
  predicate FirstMatchAt(channels: seq<Channel>, id: string, k: int) {
    && 0 <= k < |channels|
    && EqualsIgnoreCase(channels[k].id, id)
    && forall j :: 0 <= j < k ==> !EqualsIgnoreCase(channels[j].id, id)
  }

  /** `FirstOrDefault` over the channels with a case-insensitive id test. */
  function FindChannel(channels: seq<Channel>, id: string): (r: Option<nat>)
    ensures r.Some? ==> FirstMatchAt(channels, id, r.value)
    ensures r.None? <==> forall j :: 0 <= j < |channels| ==> !EqualsIgnoreCase(channels[j].id, id)
  {
    if channels == [] then None
    else if EqualsIgnoreCase(channels[0].id, id) then Some(0)
    else
      match FindChannel(channels[1..], id)
      case None => None
      case Some(k) => Some(k + 1)
  }

  /** `GetChannelStreamMediaSources`: null (`None`) for an id outside this
      source's namespace, an empty list when no channel has the id, and
      otherwise exactly one source, built from the first matching channel. */
  function GetChannelStreamMediaSources(md5: Hasher, info: TunerHostInfo, channelId: string, channels: seq<Channel>)
    : (r: Option<seq<MediaSource>>)
    ensures r.None? <==> !StartsWithIgnoreCase(channelId, ChannelIdPrefix + md5(info.url))
    ensures r == Some([]) <==>
              && StartsWithIgnoreCase(channelId, ChannelIdPrefix + md5(info.url))
              && forall j :: 0 <= j < |channels| ==> !EqualsIgnoreCase(channels[j].id, channelId)
    ensures r.Some? && r.value != [] ==>
              exists k :: FirstMatchAt(channels, channelId, k) && r.value == [SourceFor(channels[k].path)]
  {
    var prefix := ChannelIdPrefix + md5(info.url);
    if !StartsWithIgnoreCase(channelId, prefix) then None
    else
      match FindChannel(channels, channelId)
      case None => Some([])
      case Some(k) => Some([SourceFor(channels[k].path)])
  }

  /** Why `GetChannelStream` throws: `First()` of null, or of an empty list. */
  datatype StreamError = NullSources | NoSources

  /** `GetChannelStream`: the first media source; the stream id is unused. */
  function GetChannelStream(md5: Hasher, info: TunerHostInfo, channelId: string, streamId: string, channels: seq<Channel>)
    : (r: Result<MediaSource, StreamError>)
    ensures r == Failure(NullSources) <==> !StartsWithIgnoreCase(channelId, ChannelIdPrefix + md5(info.url))
    ensures r.Success? <==>
              && StartsWithIgnoreCase(channelId, ChannelIdPrefix + md5(info.url))
              && exists j :: 0 <= j < |channels| && EqualsIgnoreCase(channels[j].id, channelId)
    ensures r.Success? ==> exists k :: FirstMatchAt(channels, channelId, k) && r.value == SourceFor(channels[k].path)
  {
    match GetChannelStreamMediaSources(md5, info, channelId, channels)
    case None => Failure(NullSources)
    case Some(sources) => if sources == [] then Failure(NoSources) else Success(sources[0])
  }

  /** Round trip: resolving the id of a discovered channel against the same
      host and lineup yields the path of the first channel carrying that id
      (the channel itself, unless an earlier one has the same number). */
  lemma ResolveDiscovered(md5: Hasher, info: TunerHostInfo, lines: seq<string>, cs: seq<Channel>, i: int, streamId: string)
    requires GetChannelsInternal(md5, info, lines) == Success(cs)
    requires 0 <= i < |cs|
    ensures exists k :: 0 <= k <= i && FirstMatchAt(cs, cs[i].id, k)
              && GetChannelStream(md5, info, cs[i].id, streamId, cs) == Success(SourceFor(cs[k].path))
    ensures (forall j :: 0 <= j < i ==> !EqualsIgnoreCase(cs[j].id, cs[i].id)) ==>
              GetChannelStream(md5, info, cs[i].id, streamId, cs) == Success(SourceFor(cs[i].path))
  {
    assert cs[i] in cs;
    DiscoveredIdIsValid(md5(info.url), cs[i]);
    assert EqualsIgnoreCase(cs[i].id, cs[i].id);
    var r := GetChannelStream(md5, info, cs[i].id, streamId, cs);
    var k :| FirstMatchAt(cs, cs[i].id, k) && r == Success(SourceFor(cs[k].path));
    assert k <= i;
  }

  /** Namespace isolation: an id discovered from one source is refused (null,
      not an exception) by a host whose source URL has a different digest of
      the same length. */
  lemma ForeignIdRefused(md5: Hasher, info1: TunerHostInfo, info2: TunerHostInfo, lines: seq<string>, cs: seq<Channel>,
                         c: Channel, channels: seq<Channel>)
    requires GetChannelsInternal(md5, info1, lines) == Success(cs) && c in cs
    requires |md5(info1.url)| == |md5(info2.url)|
    requires !EqualsIgnoreCase(md5(info1.url), md5(info2.url))
    ensures GetChannelStreamMediaSources(md5, info2, c.id, channels) == None
  {
    var h1, h2 := md5(info1.url), md5(info2.url);
    var p2 := ChannelIdPrefix + h2;
    assert c.id == ChannelIdPrefix + h1 + c.number;
    assert c.id[..|p2|] == ChannelIdPrefix + h1;
    LowerAppend(ChannelIdPrefix, h1);
    LowerAppend(ChannelIdPrefix, h2);
    assert Lower(h1) == Lower(ChannelIdPrefix + h1)[|ChannelIdPrefix|..];
    assert Lower(h2) == Lower(ChannelIdPrefix + h2)[|ChannelIdPrefix|..];
  }

  // ---------------------------------------------------------------- tuner list and listing source

  datatype TunerStatus = Available

  datatype LiveTvTunerInfo = LiveTvTunerInfo(name: string, sourceType: string, status: TunerStatus, id: string, url: string)

  /** The configured hosts this tuner host reports: enabled, type "m3u" in any case. */
  predicate IsM3UHost(h: TunerHostInfo) {
    h.isEnabled && EqualsIgnoreCase(h.tunerType, TypeTag)
  }

  function TunerInfoFor(md5: Hasher, h: TunerHostInfo): LiveTvTunerInfo {
    LiveTvTunerInfo(TunerName, TypeTag, Available, md5(h.url), h.url)
  }

  /** `GetTunerInfos`: one available tuner per enabled "m3u" host, identified
      by the digest of its URL. */
  function GetTunerInfos(md5: Hasher, hosts: seq<TunerHostInfo>): (r: seq<LiveTvTunerInfo>)
    ensures |r| <= |hosts|
    ensures forall t :: t in r ==> exists h :: h in hosts && IsM3UHost(h) && t == TunerInfoFor(md5, h)
    ensures forall h :: h in hosts && IsM3UHost(h) ==> TunerInfoFor(md5, h) in r
    ensures forall t :: t in r ==>
              t.id == md5(t.url) && t.status == Available && t.name == TunerName && t.sourceType == TypeTag
  {
    if hosts == [] then []
    else
      var rest := GetTunerInfos(md5, hosts[1..]);
      assert forall h :: h in hosts ==> h == hosts[0] || h in hosts[1..];
      (if IsM3UHost(hosts[0]) then [TunerInfoFor(md5, hosts[0])] else []) + rest
  }

  /** The tuner list keeps configuration order. */
  lemma {:induction false} TunerInfosConcat(md5: Hasher, a: seq<TunerHostInfo>, b: seq<TunerHostInfo>)
    ensures GetTunerInfos(md5, a + b) == GetTunerInfos(md5, a) + GetTunerInfos(md5, b)
  {
    if a == [] {
      assert a + b == b;
    } else {
      TunerInfosConsAppend(md5, a, b);
      TunerInfosUnfold(md5, a);
      TunerInfosConcat(md5, a[1..], b);
      AppendAssociates(TunerInfoOf(md5, a[0]), GetTunerInfos(md5, a[1..]), GetTunerInfos(md5, b));
    }
  }

  /** The first host of `a` leads the tuner list of `a + b`. */
  lemma TunerInfosConsAppend(md5: Hasher, a: seq<TunerHostInfo>, b: seq<TunerHostInfo>)
    requires a != []
    ensures GetTunerInfos(md5, a + b) == TunerInfoOf(md5, a[0]) + GetTunerInfos(md5, a[1..] + b)
  {
    TunerInfosUnfold(md5, a + b);
    assert (a + b)[0] == a[0] && (a + b)[1..] == a[1..] + b;
  }

  /** Concatenation of tuner lists associates. */
  lemma AppendAssociates(x: seq<LiveTvTunerInfo>, y: seq<LiveTvTunerInfo>, z: seq<LiveTvTunerInfo>)
    ensures x + (y + z) == (x + y) + z
  {
  }

  /** The tuner a single host contributes: one for an M3U host, none otherwise. */
  function TunerInfoOf(md5: Hasher, h: TunerHostInfo): (r: seq<LiveTvTunerInfo>)
    ensures |r| <= 1
  {
    if IsM3UHost(h) then [TunerInfoFor(md5, h)] else []
  }

  /** The tuner list is the first host's tuner followed by the rest's. */
  lemma TunerInfosUnfold(md5: Hasher, hosts: seq<TunerHostInfo>)
    requires hosts != []
    ensures GetTunerInfos(md5, hosts) == TunerInfoOf(md5, hosts[0]) + GetTunerInfos(md5, hosts[1..])
  {
  }

  /** Where `GetListingsStream` reads the playlist from. */
  datatype ListingSource = HttpGet(url: string) | FileRead(path: string)

  /** The playlist is fetched over HTTP exactly when its URL would be
      classified as an HTTP path, and opened as a file otherwise. */
  function GetListingsSource(info: TunerHostInfo): (r: ListingSource)
    ensures r.HttpGet? <==> ProtocolOf(info.url) == Http
    ensures r == HttpGet(info.url) || r == FileRead(info.url)
  {
    if StartsWithIgnoreCase(info.url, "http") then HttpGet(info.url) else FileRead(info.url)
  }
}

=== FILE: network.dfy ===
/** Address-string classification and endpoint parsing of the network
    manager. Addresses are handled as text, the way the source handles them:
    the private-range test and the link-local filter are prefix tests, and
    an endpoint string is cut at its colons into an address part and a port.

    The machine's own addresses, the loopback test and name resolution are
    parameters; address parsing and DNS lookups are not modelled. */
module Network {
  import opened Wrappers
  import opened Text
  import opened Seqs

  // ---------------------------------------------------------------- dotted decimal text

  /** No letters, so case-insensitive prefix tests are ordinal ones. */
  predicate NoLetters(s: string) {
    forall i :: 0 <= i < |s| ==> !IsLetter(s[i])
  }

  /** A rendered number followed by a dot starts a string of the same shape
      exactly when the two numbers agree. */
  lemma {:induction false} DottedPrefix(x: nat, y: nat, rest: string)
    ensures (Decimal(y) + ".") <= (Decimal(x) + "." + rest) <==> x == y
  {
    var dx, dy := Decimal(x), Decimal(y);
    var s := dx + "." + rest;
    if (dy + ".") <= s {
      assert s[|dx|] == '.' && (dy + ".")[|dy|] == '.';
      assert forall i :: 0 <= i < |dx| ==> IsDigit(s[i]);
      assert forall i :: 0 <= i < |dy| ==> IsDigit((dy + ".")[i]);
      assert |dy| == |dx|;
      assert dy == (dy + ".")[..|dy|] == s[..|dx|] == dx;
      DecimalInjective(x, y);
    }
  }

  /** `StartsWith(Decimal(y) + ".", OrdinalIgnoreCase)` on a string that
      starts with a rendered number and a dot. */
  lemma StartsWithDotted(x: nat, y: nat, rest: string)
    ensures StartsWithIgnoreCase(Decimal(x) + "." + rest, Decimal(y) + ".") <==> x == y
  {
    assert NoLetters(Decimal(y) + ".") by {
      assert All(Decimal(y), IsDigit);
    }
    StartsWithIgnoreCaseNoLetters(Decimal(x) + "." + rest, Decimal(y) + ".");
    DottedPrefix(x, y, rest);
  }

  // ---------------------------------------------------------------- private address space

  /** `FilterIpAddress`: link-local "169." addresses are not offered as the
      machine's own. The prefix has no letters, so ignoring case changes
      nothing: exactly the addresses that begin with "169." are dropped. */
  function FilterIpAddress(address: string): (r: bool)
    ensures r <==> !("169." <= address)
  {
    StartsWithIgnoreCaseNoLetters(address, "169.");
    !StartsWithIgnoreCase(address, "169.")
  }

  /** The prefix `172.n.` that round `n` of the loop looks for. */
  function Prefix172(n: nat): string {
    "172." + Decimal(n) + "."
  }

  /** The loop of `Is172AddressPrivate` from round `i` on. */
  function Is172From(endpoint: string, i: int): (r: bool)
    requires 16 <= i <= 32
    ensures r <==> exists n :: i <= n <= 31 && StartsWithIgnoreCase(endpoint, Prefix172(n))
    decreases 32 - i
  {
    if i > 31 then false
    else StartsWithIgnoreCase(endpoint, Prefix172(i)) || Is172From(endpoint, i + 1)
  }

  /** `Is172AddressPrivate`: the endpoint starts with `172.n.` for some `n`
      from 16 to 31, the 172.16.0.0/12 block of section 3 of RFC 1918. */
  function Is172AddressPrivate(endpoint: string): (r: bool)
    ensures r <==> exists n :: 16 <= n <= 31 && StartsWithIgnoreCase(endpoint, Prefix172(n))
  {
    Is172From(endpoint, 16)
  }

  /** Round `n` of the loop accepts an address `172.b.…` exactly when `n`
      is `b`. */
  lemma StartsWith172(b: nat, n: nat, rest: string)
    ensures StartsWithIgnoreCase("172." + (Decimal(b) + "." + rest), Prefix172(n)) <==> n == b
  {
    var s := "172." + (Decimal(b) + "." + rest);
    assert NoLetters(Prefix172(n)) by {
      assert All(Decimal(n), IsDigit);
    }
    StartsWithIgnoreCaseNoLetters(s, Prefix172(n));
    assert Prefix172(n) == "172." + (Decimal(n) + ".");
    PrefixCancel("172.", Decimal(n) + ".", Decimal(b) + "." + rest);
    DottedPrefix(b, n, rest);
  }

  /** An address `172.b.…` is taken as private exactly when `b` is in the
      block 16 to 31. */
  lemma Private172(b: nat, rest: string)
    ensures Is172AddressPrivate("172." + (Decimal(b) + "." + rest)) <==> 16 <= b <= 31
  {
    var s := "172." + (Decimal(b) + "." + rest);
    if 16 <= b <= 31 {
      StartsWith172(b, b, rest);
    } else if Is172AddressPrivate(s) {
      var n :| 16 <= n <= 31 && StartsWithIgnoreCase(s, Prefix172(n));
      StartsWith172(b, n, rest);
    }
  }

  /** `IsInPrivateAddressSpace`: an endpoint starting with "172." is decided
      by `Is172AddressPrivate` alone; any other is private when it contains
      "::" or starts with "localhost", "127.", "10.", "192.168" or "169.".
      So every address in the 172.16.0.0/12 block, every loopback, 10.x
      and 192.168 address, and every link-local address that
      `FilterIpAddress` drops is private. */
  function IsInPrivateAddressSpace(endpoint: string): (r: bool)
    ensures Is172AddressPrivate(endpoint) ==> r
    ensures "127." <= endpoint || "10." <= endpoint || "192.168" <= endpoint ==> r
    ensures !FilterIpAddress(endpoint) ==> r
    ensures "172." <= endpoint ==> (r <==> Is172AddressPrivate(endpoint))
    ensures !("172." <= endpoint) ==>
              (r <==> || ContainsIgnoreCase(endpoint, "::")
                      || StartsWithIgnoreCase(endpoint, "localhost")
                      || "127." <= endpoint || "10." <= endpoint
                      || "192.168" <= endpoint || "169." <= endpoint)
  {
    assert Is172AddressPrivate(endpoint) ==> StartsWithIgnoreCase(endpoint, "172.") by {
      if Is172AddressPrivate(endpoint) {
        var n :| 16 <= n <= 31 && StartsWithIgnoreCase(endpoint, Prefix172(n));
        assert Prefix172(n) == "172." + (Decimal(n) + ".");
        StartsWithIgnoreCaseShorter(endpoint, "172.", Decimal(n) + ".");
      }
    }
    OrdinalPrivatePrefixes(endpoint);
    if StartsWithIgnoreCase(endpoint, "172.") then
      Is172AddressPrivate(endpoint)
    else
      || ContainsIgnoreCase(endpoint, "::")
      || StartsWithIgnoreCase(endpoint, "localhost")
      || StartsWithIgnoreCase(endpoint, "127.")
      || StartsWithIgnoreCase(endpoint, "10.")
      || StartsWithIgnoreCase(endpoint, "192.168")
      || StartsWithIgnoreCase(endpoint, "169.")
  }

  /** The prefixes the private-range test names have no letters, so their
      case-insensitive tests are ordinal ones, and none of the others is
      compatible with "172.". */
  lemma OrdinalPrivatePrefixes(e: string)
    ensures StartsWithIgnoreCase(e, "172.") <==> "172." <= e
    ensures StartsWithIgnoreCase(e, "127.") <==> "127." <= e
    ensures StartsWithIgnoreCase(e, "10.") <==> "10." <= e
    ensures StartsWithIgnoreCase(e, "192.168") <==> "192.168" <= e
    ensures StartsWithIgnoreCase(e, "169.") <==> "169." <= e
    ensures "127." <= e || "10." <= e || "192.168" <= e || "169." <= e ==> !("172." <= e)
  {
    StartsWithIgnoreCaseNoLetters(e, "172.");
    StartsWithIgnoreCaseNoLetters(e, "127.");
    StartsWithIgnoreCaseNoLetters(e, "10.");
    StartsWithIgnoreCaseNoLetters(e, "192.168");
    StartsWithIgnoreCaseNoLetters(e, "169.");
    if "172." <= e {
      assert e[0] == '1' && e[1] == '7';
    }
  }

  /** The decimal text of an IPv4 address, `a.b.c.d`. */
  function DottedQuad(a: nat, b: nat, c: nat, d: nat): string {
    Decimal(a) + "." + (Decimal(b) + "." + (Decimal(c) + "." + Decimal(d)))
  }

  /** The renderings of the leading octets the private-range test names. */
  lemma DecimalLiterals()
    ensures Decimal(10) == "10" && Decimal(127) == "127" && Decimal(168) == "168"
    ensures Decimal(169) == "169" && Decimal(172) == "172" && Decimal(192) == "192"
  {
    assert Decimal(1) == "1" && Decimal(12) == "12" && Decimal(16) == "16";
    assert Decimal(17) == "17" && Decimal(19) == "19";
  }

  /** Text made of digits and dots holds no "::" and does not start with
      "localhost". */
  lemma DigitsAndDots(s: string)
    requires forall i :: 0 <= i < |s| ==> IsDigit(s[i]) || s[i] == '.'
    ensures !ContainsIgnoreCase(s, "::")
    ensures !StartsWithIgnoreCase(s, "localhost")
  {
    forall i | 0 <= i <= |s| - 2
      ensures !StartsWithIgnoreCase(s[i..], "::")
    {
      assert Lower(s[i..][..2])[0] == LowerChar(s[i]);
    }
    if |s| >= 9 {
      assert Lower(s[..9])[0] == LowerChar(s[0]);
    }
  }

  /** The characters of a dotted quad. */
  lemma DottedQuadChars(a: nat, b: nat, c: nat, d: nat)
    ensures var q := DottedQuad(a, b, c, d);
            forall i :: 0 <= i < |q| ==> IsDigit(q[i]) || q[i] == '.'
  {
    assert All(Decimal(a), IsDigit) && All(Decimal(b), IsDigit);
    assert All(Decimal(c), IsDigit) && All(Decimal(d), IsDigit);
  }

  /** A three-digit rendering starts a number-and-dot string only when the
      numbers agree, for numbers below 1000. */
  lemma ThreeDigitPrefix(b: nat, k: nat, rest: string)
    requires 100 <= k < 1000 && b < 1000
    ensures Decimal(k) <= Decimal(b) + "." + rest <==> b == k
  {
    var db, dk := Decimal(b), Decimal(k);
    DecimalLength(b);
    DecimalLength(k);
    var s := db + "." + rest;
    if dk <= s {
      assert s[|db|] == '.';
      assert forall i :: 0 <= i < 3 ==> IsDigit(s[i]) by {
        assert All(dk, IsDigit);
      }
      assert |db| == 3;
      assert dk == s[..3] == db;
      DecimalInjective(b, k);
    }
  }

  /** "192.168" is the rendering of 192, a dot and the rendering of 168. */
  lemma Literal192168()
    ensures "192.168" == (Decimal(192) + ".") + Decimal(168)
  {
    DecimalLiterals();
    assert "192.168" == "192" + "." + "168";
  }

  /** On a string of digits and dots, the case-insensitive "192.168" prefix
      test is an ordinal one. */
  lemma Starts192168Ordinal(s: string)
    ensures StartsWithIgnoreCase(s, "192.168") <==> (Decimal(192) + ".") + Decimal(168) <= s
  {
    Literal192168();
    assert NoLetters((Decimal(192) + ".") + Decimal(168)) by {
      assert All(Decimal(192), IsDigit) && All(Decimal(168), IsDigit);
    }
    StartsWithIgnoreCaseNoLetters(s, (Decimal(192) + ".") + Decimal(168));
  }

  /** A prefix `head` and a three-digit octet `k` start `head`, the
      rendering of `b`, a dot and `rest` only when `b` is `k`. */
  lemma SecondOctet(head: string, b: nat, k: nat, rest: string)
    requires 100 <= k < 1000 && b < 1000
    requires head + Decimal(k) <= head + (Decimal(b) + "." + rest)
    ensures b == k
  {
    PrefixCancel(head, Decimal(k), Decimal(b) + "." + rest);
    ThreeDigitPrefix(b, k, rest);
  }

  /** A string starting with octet `a` and a dot starts with octet `k`, a
      dot and more only when `a` is `k`. */
  lemma FirstOctet(a: nat, k: nat, after: string, more: string)
    requires (Decimal(k) + ".") + more <= (Decimal(a) + ".") + after
    ensures a == k
  {
    assert (Decimal(k) + ".") <= (Decimal(a) + ".") + after by {
      assert ((Decimal(k) + ".") + more)[..|Decimal(k) + "."|] == Decimal(k) + ".";
    }
    DottedPrefix(a, k, after);
  }

  /** Only an address whose first two octets are 192 and 168 starts with
      "192.168". */
  lemma Starts192168Only(a: nat, b: nat, rest: string)
    requires b <= 255
    requires (Decimal(192) + ".") + Decimal(168) <= Decimal(a) + "." + (Decimal(b) + "." + rest)
    ensures a == 192 && b == 168
  {
    var head := Decimal(192) + ".";
    var after := Decimal(b) + "." + rest;
    FirstOctet(a, 192, after, Decimal(168));
    SecondOctet(head, b, 168, rest);
  }

  /** An address starts with "192.168" exactly when its first two octets
      are 192 and 168. */
  lemma Starts192168(a: nat, b: nat, rest: string)
    requires b <= 255
    ensures StartsWithIgnoreCase(Decimal(a) + "." + (Decimal(b) + "." + rest), "192.168") <==> a == 192 && b == 168
  {
    var head, tail := Decimal(192) + ".", Decimal(168);
    var after := Decimal(b) + "." + rest;
    Starts192168Ordinal(Decimal(a) + "." + after);
    if head + tail <= Decimal(a) + "." + after {
      Starts192168Only(a, b, rest);
    }
    if a == 192 && b == 168 {
      PrefixCancel(head, tail, after);
    }
  }

  /** A leading-octet test: `lit` is the rendering of `k` and a dot. */
  lemma StartsWithOctet(a: nat, k: nat, rest: string, lit: string)
    requires lit == Decimal(k) + "."
    ensures StartsWithIgnoreCase(Decimal(a) + "." + rest, lit) <==> a == k
  {
    StartsWithDotted(a, k, rest);
  }

  lemma Starts10(a: nat, rest: string)
    ensures StartsWithIgnoreCase(Decimal(a) + "." + rest, "10.") <==> a == 10
  {
    assert Decimal(1) == "1";
    StartsWithOctet(a, 10, rest, "10.");
  }

  lemma Starts127(a: nat, rest: string)
    ensures StartsWithIgnoreCase(Decimal(a) + "." + rest, "127.") <==> a == 127
  {
    assert Decimal(12) == "12";
    StartsWithOctet(a, 127, rest, "127.");
  }

  lemma Starts169(a: nat, rest: string)
    ensures StartsWithIgnoreCase(Decimal(a) + "." + rest, "169.") <==> a == 169
  {
    assert Decimal(16) == "16";
    StartsWithOctet(a, 169, rest, "169.");
  }

  lemma Starts172(a: nat, rest: string)
    ensures StartsWithIgnoreCase(Decimal(a) + "." + rest, "172.") <==> a == 172
    ensures a == 172 ==> Decimal(a) + "." + rest == "172." + rest
  {
    assert Decimal(17) == "17";
    StartsWithOctet(a, 172, rest, "172.");
  }

  /** On the text of an IPv4 address the prefix tests pick out exactly the
      10/8, 172.16/12 and 192.168/16 blocks of section 3 of RFC 1918, the
      127/8 loopback block and the 169/8 block (wider than the 169.254/16
      link-local block). */
  lemma PrivateDottedQuad(a: nat, b: nat, c: nat, d: nat)
    requires a <= 255 && b <= 255 && c <= 255 && d <= 255
    ensures IsInPrivateAddressSpace(DottedQuad(a, b, c, d)) <==>
              || a == 10 || a == 127 || a == 169
              || (a == 172 && 16 <= b <= 31)
              || (a == 192 && b == 168)
  {
    var tail := Decimal(c) + "." + Decimal(d);
    var rest := Decimal(b) + "." + tail;
    Starts172(a, rest);
    if a == 172 {
      Private172(b, tail);
    } else {
      DottedQuadChars(a, b, c, d);
      DigitsAndDots(DottedQuad(a, b, c, d));
      Starts127(a, rest);
      Starts10(a, rest);
      Starts169(a, rest);
      Starts192168(a, b, tail);
    }
  }

  /** On the text of an IPv4 address, `FilterIpAddress` rejects exactly the
      169/8 block. */
  lemma FilterDottedQuad(a: nat, b: nat, c: nat, d: nat)
    ensures FilterIpAddress(DottedQuad(a, b, c, d)) <==> a != 169
  {
    Starts169(a, Decimal(b) + "." + (Decimal(c) + "." + Decimal(d)));
  }

  /** A host name beginning "localhost", in any case, is private. */
  lemma LocalhostIsPrivate(head: string, rest: string)
    requires EqualsIgnoreCase(head, "localhost")
    ensures IsInPrivateAddressSpace(head + rest)
  {
    var s := head + rest;
    assert |head| == 9 && s[..9] == head;
    assert LowerChar(s[0]) == Lower(head)[0] == 'l';
    OrdinalPrivatePrefixes(s);
  }

  /** An address `172.b.…` outside the 16..31 block is not private, even
      when it holds "::": the "172." branch decides it alone. */
  lemma Outside172BlockNotPrivate(b: nat, rest: string)
    requires b < 16 || b > 31
    ensures !IsInPrivateAddressSpace("172." + (Decimal(b) + "." + rest))
  {
    Private172(b, rest);
  }

  lemma Outside172BlockExample()
    ensures !IsInPrivateAddressSpace("172.5.0.1::")
  {
    assert Decimal(5) == "5";
    assert "172.5.0.1::" == "172." + (Decimal(5) + "." + "0.1::");
    Outside172BlockNotPrivate(5, "0.1::");
  }

  lemma LocalhostExample()
    ensures IsInPrivateAddressSpace("LocalHost:8096")
  {
    assert Lower("LocalHost") == "localhost";
    assert "LocalHost:8096" == "LocalHost" + ":8096";
    LocalhostIsPrivate("LocalHost", ":8096");
  }

  /** An address holding "::" (an IPv6 address such as "::1") is private
      unless it starts with "172.". */
  lemma DoubleColonIsPrivate(a: string, b: string)
    requires !StartsWithIgnoreCase(a + "::" + b, "172.")
    ensures IsInPrivateAddressSpace(a + "::" + b)
  {
    var s := a + "::" + b;
    assert s[|a|..][..2] == "::";
  }

  // ---------------------------------------------------------------- the machine's own addresses

  /** The last element of `xs` that satisfies `p`, if any. */
  function LastWhere(xs: seq<string>, p: string -> bool): (r: Option<string>)
    ensures r.Some? ==> r.value in xs && p(r.value)
    ensures r.None? <==> forall x :: x in xs ==> !p(x)
  {
    if xs == [] then None
    else if p(xs[|xs| - 1]) then Some(xs[|xs| - 1])
    else
      assert forall x :: x in xs ==> x == xs[|xs| - 1] || x in xs[..|xs| - 1];
      LastWhere(xs[..|xs| - 1], p)
  }

  /** `GetLocalIpAddressesInternal`: the addresses of the gateway-connected
      adapters (`adapterAddresses`, as text) that are not loopback and not
      link-local; when there are none, the host's own IPv4 addresses
      (`hostAddresses`) in reverse order, link-local ones removed. */
  function LocalIpAddresses(adapterAddresses: seq<string>, isLoopback: string -> bool, hostAddresses: seq<string>)
    : (r: seq<string>)
    ensures forall a :: a in r ==> FilterIpAddress(a)
    ensures (exists a :: a in adapterAddresses && !isLoopback(a) && FilterIpAddress(a)) ==>
              forall a :: multiset(r)[a] == if !isLoopback(a) && FilterIpAddress(a) then multiset(adapterAddresses)[a] else 0
    ensures forall k :: 0 <= k < |adapterAddresses| && !isLoopback(adapterAddresses[k]) && FilterIpAddress(adapterAddresses[k])
                        && (forall i :: 0 <= i < k ==> isLoopback(adapterAddresses[i]) || !FilterIpAddress(adapterAddresses[i])) ==>
              r != [] && r[0] == adapterAddresses[k]
    ensures (forall a :: a in adapterAddresses ==> isLoopback(a) || !FilterIpAddress(a)) ==>
              && (forall a :: a in r <==> a in hostAddresses && FilterIpAddress(a))
              && (r != [] ==> Some(r[0]) == LastWhere(hostAddresses, FilterIpAddress))
  {
    var list := AdapterAddresses(adapterAddresses, isLoopback);
    if |list| > 0 then
      assert list[0] in list;
      list
    else
      var r := Where(Reverse(hostAddresses), FilterIpAddress);
      assert forall a :: a in Reverse(hostAddresses) <==> a in hostAddresses by {
        ReverseMembers(hostAddresses);
      }
      if r != [] then
        FirstOfReverse(hostAddresses, FilterIpAddress);
        r
      else r
  }

  /** `i => !IPAddress.IsLoopback(i)`. */
  function NotLoopback(isLoopback: string -> bool): string -> bool {
    a => !isLoopback(a)
  }

  /** The adapters' addresses that are not loopback and pass the filter:
      each as often as it occurs, the first passing address first. */
  function AdapterAddresses(adapterAddresses: seq<string>, isLoopback: string -> bool): (r: seq<string>)
    ensures forall a :: multiset(r)[a] == if !isLoopback(a) && FilterIpAddress(a) then multiset(adapterAddresses)[a] else 0
    ensures forall k :: 0 <= k < |adapterAddresses| && !isLoopback(adapterAddresses[k]) && FilterIpAddress(adapterAddresses[k])
                        && (forall i :: 0 <= i < k ==> isLoopback(adapterAddresses[i]) || !FilterIpAddress(adapterAddresses[i])) ==>
              r != [] && r[0] == adapterAddresses[k]
  {
    AdapterCounts(adapterAddresses, isLoopback);
    assert forall k :: 0 <= k < |adapterAddresses| && !isLoopback(adapterAddresses[k]) && FilterIpAddress(adapterAddresses[k])
                       && (forall i :: 0 <= i < k ==> isLoopback(adapterAddresses[i]) || !FilterIpAddress(adapterAddresses[i])) ==>
             Where(Where(adapterAddresses, NotLoopback(isLoopback)), FilterIpAddress) != []
             && Where(Where(adapterAddresses, NotLoopback(isLoopback)), FilterIpAddress)[0] == adapterAddresses[k] by {
      forall k | 0 <= k < |adapterAddresses| && !isLoopback(adapterAddresses[k]) && FilterIpAddress(adapterAddresses[k])
                 && (forall i :: 0 <= i < k ==> isLoopback(adapterAddresses[i]) || !FilterIpAddress(adapterAddresses[i])) {
        AdapterFirst(adapterAddresses, isLoopback, k);
      }
    }
    Where(Where(adapterAddresses, NotLoopback(isLoopback)), FilterIpAddress)
  }

  /** Each adapter address that is not loopback and passes the filter is
      kept as often as it occurs; no other is kept. */
  lemma AdapterCounts(adapterAddresses: seq<string>, isLoopback: string -> bool)
    ensures forall a :: multiset(Where(Where(adapterAddresses, NotLoopback(isLoopback)), FilterIpAddress))[a]
                        == if !isLoopback(a) && FilterIpAddress(a) then multiset(adapterAddresses)[a] else 0
  {
    var notLoopback := NotLoopback(isLoopback);
    forall a
      ensures multiset(Where(Where(adapterAddresses, notLoopback), FilterIpAddress))[a]
              == if !isLoopback(a) && FilterIpAddress(a) then multiset(adapterAddresses)[a] else 0
    {
      WhereCount(adapterAddresses, notLoopback, a);
      WhereCount(Where(adapterAddresses, notLoopback), FilterIpAddress, a);
    }
  }

  /** The first adapter address that is not loopback and passes the filter
      comes first. */
  lemma AdapterFirst(adapterAddresses: seq<string>, isLoopback: string -> bool, k: int)
    requires 0 <= k < |adapterAddresses| && !isLoopback(adapterAddresses[k]) && FilterIpAddress(adapterAddresses[k])
    requires forall i :: 0 <= i < k ==> isLoopback(adapterAddresses[i]) || !FilterIpAddress(adapterAddresses[i])
    ensures Where(Where(adapterAddresses, NotLoopback(isLoopback)), FilterIpAddress) != []
            && Where(Where(adapterAddresses, NotLoopback(isLoopback)), FilterIpAddress)[0] == adapterAddresses[k]
  {
    var both := Both(NotLoopback(isLoopback), FilterIpAddress);
    assert forall i :: 0 <= i <= k ==> both(adapterAddresses[i]) == (!isLoopback(adapterAddresses[i]) && FilterIpAddress(adapterAddresses[i]));
    WhereWhere(adapterAddresses, NotLoopback(isLoopback), FilterIpAddress);
    WhereFirst(adapterAddresses, both, k);
  }

  /** Adapter order is kept: when both halves of the adapter list have a
      usable address, the addresses of the whole list are those of the first
      half, then those of the second. */
  lemma AdapterOrderKept(a: seq<string>, b: seq<string>, isLoopback: string -> bool, hostAddresses: seq<string>)
    requires exists x :: x in a && !isLoopback(x) && FilterIpAddress(x)
    requires exists x :: x in b && !isLoopback(x) && FilterIpAddress(x)
    ensures LocalIpAddresses(a + b, isLoopback, hostAddresses)
            == LocalIpAddresses(a, isLoopback, hostAddresses) + LocalIpAddresses(b, isLoopback, hostAddresses)
  {
    WhereAppend(a, b, NotLoopback(isLoopback));
    WhereAppend(Where(a, NotLoopback(isLoopback)), Where(b, NotLoopback(isLoopback)), FilterIpAddress);
  }

  /** Filtering the reversed list starts with the last match of the list. */
  lemma {:induction false} FirstOfReverse(xs: seq<string>, p: string -> bool)
    requires Where(Reverse(xs), p) != []
    ensures Some(Where(Reverse(xs), p)[0]) == LastWhere(xs, p)
  {
    var n := |xs|;
    var rev := Reverse(xs);
    ReverseLast(xs);
    WhereHead(rev, p);
    if !p(xs[n - 1]) {
      assert [] + Where(rev[1..], p) == Where(rev[1..], p);
      FirstOfReverse(xs[..n - 1], p);
    }
  }

  // ---------------------------------------------------------------- local network

  datatype NetworkError = ArgumentNull

  /** The length of the address prefix compared against the machine's own
      addresses. */
  const LengthMatch: nat := 4

  /** Some own address starts with the first four characters of `endpoint`. */
  predicate SharesPrefix(endpoint: string, localAddresses: seq<string>) {
    |endpoint| >= LengthMatch
    && exists a :: a in localAddresses && StartsWithIgnoreCase(a, endpoint[..LengthMatch])
  }

  /** `IsInLocalNetworkInternal`. A blank endpoint is an error; a private
      address, or one that shares its first four characters with an own
      address, is local. With `resolveHost`, an endpoint the name lookup
      turns into an address (`resolved`: the first address of the lookup of
      the endpoint's host, absent when the endpoint is an IP address, is not
      a URI, or does not resolve) is judged by that address instead. */
  function IsInLocalNetworkInternal(endpoint: string, resolveHost: bool, localAddresses: seq<string>,
                                    resolved: Option<string>): (r: Result<bool, NetworkError>)
    ensures r.Failure? <==> IsNullOrWhiteSpace(endpoint)
    ensures r.Success? && (IsInPrivateAddressSpace(endpoint) || SharesPrefix(endpoint, localAddresses)) ==> r.value
    ensures r.Success? && !resolveHost ==>
              (r.value <==> IsInPrivateAddressSpace(endpoint) || SharesPrefix(endpoint, localAddresses))
    decreases resolveHost
  {
    if IsNullOrWhiteSpace(endpoint) then Failure(ArgumentNull)
    else if IsInPrivateAddressSpace(endpoint) then Success(true)
    else if SharesPrefix(endpoint, localAddresses) then Success(true)
    else if resolveHost && resolved.Some? then
      match IsInLocalNetworkInternal(resolved.value, false, localAddresses, None)
      case Failure(_) => Success(false)
      case Success(b) => Success(b)
    else Success(false)
  }

  /** A machine's own address (of at least four characters) is in its local
      network. */
  lemma OwnAddressIsLocal(a: string, localAddresses: seq<string>, resolveHost: bool, resolved: Option<string>)
    requires a in localAddresses && |a| >= LengthMatch && !IsNullOrWhiteSpace(a)
    ensures IsInLocalNetworkInternal(a, resolveHost, localAddresses, resolved) == Success(true)
  {
    assert StartsWithIgnoreCase(a, a[..LengthMatch]);
  }

  /** Knowing more own addresses never makes an endpoint less local. */
  lemma MoreAddressesMoreLocal(endpoint: string, fewer: seq<string>, more: seq<string>, resolveHost: bool,
                               resolved: Option<string>)
    requires forall a :: a in fewer ==> a in more
    requires IsInLocalNetworkInternal(endpoint, resolveHost, fewer, resolved) == Success(true)
    ensures IsInLocalNetworkInternal(endpoint, resolveHost, more, resolved) == Success(true)
    decreases resolveHost
  {
    if resolveHost && resolved.Some? && !IsInPrivateAddressSpace(endpoint) && !SharesPrefix(endpoint, fewer) {
      MoreAddressesMoreLocal(resolved.value, fewer, more, false, None);
    }
  }

  /** Resolving the host only ever adds local endpoints. */
  lemma ResolutionOnlyAdds(endpoint: string, localAddresses: seq<string>, resolved: Option<string>)
    requires IsInLocalNetworkInternal(endpoint, false, localAddresses, None) == Success(true)
    ensures IsInLocalNetworkInternal(endpoint, true, localAddresses, resolved) == Success(true)
  {
  }

  // ---------------------------------------------------------------- endpoints

  /** `IPEndPoint.MinPort` and `IPEndPoint.MaxPort`. */
  const MinPort: int := 0
  const MaxPort: int := 0xFFFF

  /** The port a `Parse` caller passes when there is no default. */
  const NoDefaultPort: int := -1

  /** The exceptions `Parse` raises: the three `ArgumentException`s and the
      `FormatException` of `GetPort`. */
  datatype EndpointError =
    | EmptyEndpoint
    | InvalidDefaultPort(port: int)
    | NoPort(endpoint: string)
    | InvalidPort(text: string)

  /** `GetPort`: a 32-bit integer in the port range. */
  function GetPort(p: string): (r: Result<int, EndpointError>)
    ensures r.Success? ==> MinPort <= r.value <= MaxPort && TryParseInt32(p) == Some(r.value)
    ensures r.Failure? ==> r.error == InvalidPort(p)
    ensures TryParseInt32(p).Some? && MinPort <= TryParseInt32(p).value <= MaxPort ==> r.Success?
  {
    match TryParseInt32(p)
    case Some(port) =>
      if port < MinPort || port > MaxPort then Failure(InvalidPort(p)) else Success(port)
    case None => Failure(InvalidPort(p))
  }

  /** Every port written in decimal reads back. */
  lemma GetPortDecimal(n: nat)
    requires n <= MaxPort
    ensures GetPort(Decimal(n)) == Success(n)
  {
    TryParseDecimal(n);
  }

  /** What `Parse` makes of the address part: a host name or IPv4 address
      (the text before the only colon), a bracketed IPv6 address followed by
      a port, or an IPv6 address without a port (the whole string). The
      address itself is not parsed or resolved here. */
  datatype Address = HostOrIPv4(text: string) | BracketedIPv6(text: string) | WholeIPv6(text: string)

  datatype Endpoint = Endpoint(address: Address, port: int)

  /** The text after the last colon of `s` (all of `s` when it has none). */
  function LastPart(s: string): string {
    var values := Split(s, ':');
    values[|values| - 1]
  }

  /** The address part and the port of an endpoint string split at its
      colons, before the "no port" check. A port that is not the default is
      read from the text after the last colon, and that text is also what a
      failure names. */
  function AddressAndPort(s: string, defaultport: int): (r: Result<(Address, int), EndpointError>)
    ensures r.Failure? ==> ':' in s && r.error == InvalidPort(LastPart(s)) && GetPort(LastPart(s)).Failure?
    ensures |Split(s, ':')| == 2 ==> (r.Failure? <==> GetPort(LastPart(s)).Failure?)
    ensures r.Success? ==> MinPort <= r.value.1 <= MaxPort || r.value.1 == defaultport
    ensures r.Success? && ':' in s && !r.value.0.WholeIPv6? ==> GetPort(LastPart(s)) == Success(r.value.1)
    ensures r.Success? && r.value.1 != defaultport ==> ':' in s && GetPort(LastPart(s)) == Success(r.value.1)
    ensures ':' !in s ==> r == Success((HostOrIPv4(s), defaultport))
    ensures r.Success? && r.value.0.HostOrIPv4? ==> ':' !in r.value.0.text
    ensures r.Success? && r.value.0.WholeIPv6? ==> r.value.0.text == s && r.value.1 == defaultport && |Split(s, ':')| > 2
  {
    assert ':' !in s ==> Split(s, ':') == [s] by {
      if ':' !in s {
        SplitWithout(s, ':');
      }
    }
    ChooseAddress(s, Split(s, ':'), defaultport)
  }

  /** The choice `Parse` makes from the colon-separated parts `values` of `s`. */
  function ChooseAddress(s: string, values: seq<string>, defaultport: int): Result<(Address, int), EndpointError>
    requires |values| >= 1
  {
    if |values| <= 2 then
      var port := if |values| == 1 then Success(defaultport) else GetPort(values[1]);
      if port.Failure? then Failure(port.error) else Success((HostOrIPv4(values[0]), port.value))
    else
      if ['['] <= values[0] && EndsWith(values[|values| - 2], "]") then
        var port := GetPort(values[|values| - 1]);
        if port.Failure? then Failure(port.error)
        else Success((BracketedIPv6(Join(values[..|values| - 1], ':')), port.value))
      else
        Success((WholeIPv6(s), defaultport))
  }

  /** `Parse(string, int)`: an endpoint string and a default port (-1 for
      none) to an address and a port. An explicit port is read from the text
      after the last colon, and a bad one is reported with that text. */
  function ParseEndpoint(s: string, defaultport: int): (r: Result<Endpoint, EndpointError>)
    ensures r == Failure(EmptyEndpoint) <==> Trim(s) == []
    ensures Trim(s) != [] && defaultport != NoDefaultPort && !(MinPort <= defaultport <= MaxPort) ==>
              r == Failure(InvalidDefaultPort(defaultport))
    ensures r.Failure? && r.error.InvalidPort? ==>
              ':' in s && r.error.text == LastPart(s) && GetPort(LastPart(s)).Failure?
    ensures r.Success? ==> MinPort <= r.value.port <= MaxPort
    ensures r.Success? && ':' in s && !r.value.address.WholeIPv6? ==> GetPort(LastPart(s)) == Success(r.value.port)
    ensures r.Success? && r.value.address.HostOrIPv4? ==> ':' !in r.value.address.text
    ensures r.Success? && r.value.address.WholeIPv6? ==> r.value.address.text == s && r.value.port == defaultport
    ensures r.Success? && r.value.port != defaultport ==> ':' in s
  {
    if IsNullOrWhiteSpace(s) then Failure(EmptyEndpoint)
    else if defaultport != NoDefaultPort && (defaultport < MinPort || defaultport > MaxPort) then
      Failure(InvalidDefaultPort(defaultport))
    else
      var chosen := AddressAndPort(s, defaultport);
      if chosen.Failure? then Failure(chosen.error)
      else if chosen.value.1 == NoDefaultPort then Failure(NoPort(s))
      else Success(Endpoint(chosen.value.0, chosen.value.1))
  }

  /** `Parse(string)`: without a default, only an endpoint that names its
      port parses, and never as an IPv6 address without one. */
  function Parse(s: string): (r: Result<Endpoint, EndpointError>)
    ensures r.Success? ==> ':' in s && !r.value.address.WholeIPv6?
  {
    ParseEndpoint(s, NoDefaultPort)
  }

  /** A valid default: none, or a port. */
  predicate ValidDefault(defaultport: int) {
    defaultport == NoDefaultPort || MinPort <= defaultport <= MaxPort
  }

  /** `host:port` parses to the host and the port the text after the colon
      reads as, whatever the default; a bad port is reported with its text. */
  lemma ParseHostAndPort(host: string, p: string, defaultport: int)
    requires ':' !in host && ':' !in p && ValidDefault(defaultport)
    ensures ParseEndpoint(host + ":" + p, defaultport) ==
              if GetPort(p).Failure? then Failure(InvalidPort(p))
              else Success(Endpoint(HostOrIPv4(host), GetPort(p).value))
  {
    var s := host + ":" + p;
    assert Split(s, ':') == [host, p] by {
      assert s == host + [':'] + p;
      SplitAround(host, ':', p);
      SplitWithout(p, ':');
    }
    assert !IsNullOrWhiteSpace(s) by {
      assert s[|host|] == ':';
    }
    ParseParts(s, defaultport);
  }

  /** `host:n` for a port number `n` written in decimal. */
  lemma ParseHostAndNumber(host: string, port: nat, defaultport: int)
    requires ':' !in host && port <= MaxPort && ValidDefault(defaultport)
    ensures ParseEndpoint(host + ":" + Decimal(port), defaultport) == Success(Endpoint(HostOrIPv4(host), port))
  {
    DecimalHasNoColon(port);
    GetPortDecimal(port);
    ParseHostAndPort(host, Decimal(port), defaultport);
  }

  /** A bare host takes the default port, and fails without one. */
  lemma ParseHostOnly(host: string, defaultport: int)
    requires ':' !in host && !IsNullOrWhiteSpace(host) && ValidDefault(defaultport)
    ensures defaultport == NoDefaultPort ==> ParseEndpoint(host, defaultport) == Failure(NoPort(host))
    ensures defaultport != NoDefaultPort ==>
              ParseEndpoint(host, defaultport) == Success(Endpoint(HostOrIPv4(host), defaultport))
  {
    SplitWithout(host, ':');
  }

  /** `ParseEndpoint` on a non-blank string with a valid default is the
      address and port its colon-separated parts give, or their error. */
  lemma ParseParts(s: string, defaultport: int)
    requires !IsNullOrWhiteSpace(s) && ValidDefault(defaultport)
    ensures AddressAndPort(s, defaultport).Failure? ==>
              ParseEndpoint(s, defaultport) == Failure(AddressAndPort(s, defaultport).error)
    ensures AddressAndPort(s, defaultport).Success? ==>
              var (address, port) := AddressAndPort(s, defaultport).value;
              ParseEndpoint(s, defaultport) == if port == NoDefaultPort then Failure(NoPort(s)) else Success(Endpoint(address, port))
  {
  }

  /** Joining two or more parts puts a colon after the first. */
  lemma JoinedNotBlank(parts: seq<string>)
    requires |parts| >= 2
    ensures !IsNullOrWhiteSpace(Join(parts, ':'))
  {
    JoinCons(parts[0], parts[1..], ':');
    assert [parts[0]] + parts[1..] == parts;
    var s := Join(parts, ':');
    assert s[|parts[0]|] == ':';
  }

  /** A decimal numeral holds no colon. */
  lemma DecimalHasNoColon(n: nat)
    ensures ':' !in Decimal(n)
  {
    forall i | 0 <= i < |Decimal(n)| ensures Decimal(n)[i] != ':' {
      assert IsDigit(Decimal(n)[i]);
    }
  }

  /** The parts of a bracketed address followed by a port. */
  lemma BracketedParts(parts: seq<string>, p: string)
    requires |parts| >= 2 && forall k :: 0 <= k < |parts| ==> ':' !in parts[k]
    requires ':' !in p
    ensures var values := parts + [p];
            Split(Join(values, ':'), ':') == values && values[..|values| - 1] == parts
            && values[|values| - 2] == parts[|parts| - 1] && values[0] == parts[0]
            && !IsNullOrWhiteSpace(Join(values, ':'))
  {
    var values := parts + [p];
    forall k | 0 <= k < |values| ensures ':' !in values[k] {
      if k < |parts| {
        assert values[k] == parts[k];
      }
    }
    SplitJoin(values, ':');
    JoinedNotBlank(values);
    assert values[..|values| - 1] == parts;
  }

  /** The address part and port of a string whose colon-separated parts are
      a bracketed address followed by `p`. */
  lemma AddressAndPortBracketed(s: string, defaultport: int, parts: seq<string>, p: string)
    requires Split(s, ':') == parts + [p] && |parts| >= 2
    requires ['['] <= parts[0] && EndsWith(parts[|parts| - 1], "]")
    ensures AddressAndPort(s, defaultport) ==
              if GetPort(p).Failure? then Failure(InvalidPort(p))
              else Success((BracketedIPv6(Join(parts, ':')), GetPort(p).value))
  {
    var values := parts + [p];
    assert |values| > 2 && values[|values| - 1] == p && values[..|values| - 1] == parts;
    assert ['['] <= values[0] && EndsWith(values[|values| - 2], "]") by {
      assert values[0] == parts[0] && values[|values| - 2] == parts[|parts| - 1];
    }
    ChooseBracketed(s, defaultport, values);
    assert AddressAndPort(s, defaultport) == ChooseAddress(s, values, defaultport);
  }

  /** A bracketed first part and a bracket closing the part before the last
      choose the parts before the last, rejoined, and the port the last reads as. */
  lemma ChooseBracketed(s: string, defaultport: int, values: seq<string>)
    requires |values| > 2 && ['['] <= values[0] && EndsWith(values[|values| - 2], "]")
    ensures var p := values[|values| - 1];
            ChooseAddress(s, values, defaultport) ==
              if GetPort(p).Failure? then Failure(InvalidPort(p))
              else Success((BracketedIPv6(Join(values[..|values| - 1], ':')), GetPort(p).value))
  {
  }

  /** `[a:b:…:z]:p` parses to the bracketed address and the port `p` reads
      as; a bad port is reported with its text. */
  lemma ParseBracketed(parts: seq<string>, p: string, defaultport: int)
    requires |parts| >= 2 && forall k :: 0 <= k < |parts| ==> ':' !in parts[k]
    requires ['['] <= parts[0] && EndsWith(parts[|parts| - 1], "]")
    requires ':' !in p && ValidDefault(defaultport)
    ensures ParseEndpoint(Join(parts + [p], ':'), defaultport) ==
              if GetPort(p).Failure? then Failure(InvalidPort(p))
              else Success(Endpoint(BracketedIPv6(Join(parts, ':')), GetPort(p).value))
  {
    var s := Join(parts + [p], ':');
    BracketedParts(parts, p);
    AddressAndPortBracketed(s, defaultport, parts, p);
    ParseParts(s, defaultport);
  }

  /** A port that is not a number is an error naming its text, even with a
      default at hand. */
  lemma ParseBadPortExample()
    ensures ParseEndpoint("localhost:http", 80) == Failure(InvalidPort("http"))
  {
    assert GetPort("http") == Failure(InvalidPort("http")) by {
      var s := "http";
      assert !IsNumberWhite(s[0]) && !IsNumberWhite(s[|s| - 1]);
      TrimByTrimmed(s, IsNumberWhite);
      assert !IsDigit(s[0]);
    }
    assert "localhost" + ":" + "http" == "localhost:http";
    ParseHostAndPort("localhost", "http", 80);
  }

  /** `[a:b:…:z]:n` for a port number `n` written in decimal. */
  lemma ParseBracketedNumber(parts: seq<string>, port: nat, defaultport: int)
    requires |parts| >= 2 && forall k :: 0 <= k < |parts| ==> ':' !in parts[k]
    requires ['['] <= parts[0] && EndsWith(parts[|parts| - 1], "]")
    requires port <= MaxPort && ValidDefault(defaultport)
    ensures ParseEndpoint(Join(parts + [Decimal(port)], ':'), defaultport)
            == Success(Endpoint(BracketedIPv6(Join(parts, ':')), port))
  {
    DecimalHasNoColon(port);
    GetPortDecimal(port);
    ParseBracketed(parts, Decimal(port), defaultport);
  }

  /** An address of three or more colon-separated parts that is not
      bracketed is an IPv6 address without a port. */
  lemma ParseWholeIPv6(parts: seq<string>, defaultport: int)
    requires |parts| >= 3 && forall k :: 0 <= k < |parts| ==> ':' !in parts[k]
    requires !(['['] <= parts[0] && EndsWith(parts[|parts| - 2], "]"))
    requires ValidDefault(defaultport)
    ensures defaultport == NoDefaultPort ==>
              ParseEndpoint(Join(parts, ':'), defaultport) == Failure(NoPort(Join(parts, ':')))
    ensures defaultport != NoDefaultPort ==>
              ParseEndpoint(Join(parts, ':'), defaultport) == Success(Endpoint(WholeIPv6(Join(parts, ':')), defaultport))
  {
    var s := Join(parts, ':');
    SplitJoin(parts, ':');
    JoinedNotBlank(parts);
    assert AddressAndPort(s, defaultport) == Success((WholeIPv6(s), defaultport));
    ParseParts(s, defaultport);
  }
}

=== FILE: nextup.dfy ===
/** Next-up episode selection for TV series: for each series, the episode a
    user should watch next, the series ranked by the user's rating of them
    and by recency, and the ranked list paged for the caller.

    The library, user and user-data lookups are resolved before the model
    runs: a series carries its seasons in display order and the requesting
    user's rating, an episode carries the user's played flag and last-played
    date, and dates are instants on a line whose least point is the
    `DateTime.MinValue` the source uses for "no date". */
module NextUp {
  import opened Wrappers
  import opened Text
  import opened Seqs

  type Date = nat

  /** `DateTime.MinValue`. */
  const MinDate: Date := 0

  datatype Episode = Episode(
    id: string,
    isVirtualUnaired: bool,
    isMissing: bool,
    premiereDate: Option<Date>,
    played: bool,
    lastPlayedDate: Option<Date>)

  datatype Season = Season(indexNumber: Option<int>, episodes: seq<Episode>)

  /** A series with its seasons in display order and the requesting user's
      rating of it. */
  datatype Series = Series(id: string, seasons: seq<Season>, isFavorite: bool, likes: Option<bool>)

  datatype User = User(id: string, displayMissingEpisodes: bool)

  datatype NextUpQuery = NextUpQuery(userId: string, seriesId: string, startIndex: Option<int>, limit: Option<int>)

  // ---------------------------------------------------------------- episodes of a series

  /** Season 0 holds the specials, which never count as next up; a season
      without an index number is kept. */
  predicate InDisplay(s: Season) {
    s.indexNumber != Some(0)
  }

  /** The episodes of the displayed seasons, in display order. */
  function DisplayEpisodes(seasons: seq<Season>): seq<Episode> {
    if seasons == [] then []
    else (if InDisplay(seasons[0]) then seasons[0].episodes else []) + DisplayEpisodes(seasons[1..])
  }

  /** An episode lists exactly when some displayed season lists it. */
  lemma {:induction false} DisplayEpisodesMembers(seasons: seq<Season>, e: Episode)
    ensures e in DisplayEpisodes(seasons) <==>
              exists k :: 0 <= k < |seasons| && InDisplay(seasons[k]) && e in seasons[k].episodes
  {
    if seasons != [] {
      DisplayEpisodesMembers(seasons[1..], e);
      if e in DisplayEpisodes(seasons[1..]) {
        var k :| 0 <= k < |seasons[1..]| && InDisplay(seasons[1..][k]) && e in seasons[1..][k].episodes;
        assert seasons[k + 1] == seasons[1..][k];
      }
      if exists k :: 0 < k < |seasons| && InDisplay(seasons[k]) && e in seasons[k].episodes {
        var k :| 0 < k < |seasons| && InDisplay(seasons[k]) && e in seasons[k].episodes;
        assert seasons[1..][k - 1] == seasons[k];
      }
    }
  }

  /** A series' episodes in display order are those of its seasons in turn. */
  lemma {:induction false} DisplayEpisodesAppend(a: seq<Season>, b: seq<Season>)
    ensures DisplayEpisodes(a + b) == DisplayEpisodes(a) + DisplayEpisodes(b)
  {
    if a == [] {
      assert a + b == b;
    } else {
      assert (a + b)[0] == a[0];
      assert (a + b)[1..] == a[1..] + b;
      DisplayEpisodesAppend(a[1..], b);
    }
  }

  /** An episode that may be offered: not a virtual unaired one, and not a
      missing one unless the user displays missing episodes. */
  predicate Eligible(e: Episode, includeMissing: bool) {
    !e.isVirtualUnaired && (!e.isMissing || includeMissing)
  }

  predicate Unwatched(e: Episode, includeMissing: bool) {
    Eligible(e, includeMissing) && !e.played
  }

  /** `LastOrDefault` of the unwatched episodes. */
  function LastUnwatched(es: seq<Episode>, includeMissing: bool): (r: Option<Episode>)
    ensures r.None? <==> forall i :: 0 <= i < |es| ==> !Unwatched(es[i], includeMissing)
    ensures r.Some? ==> exists i :: 0 <= i < |es| && es[i] == r.value && Unwatched(es[i], includeMissing)
                          && forall j :: i < j < |es| ==> !Unwatched(es[j], includeMissing)
  {
    if es == [] then None
    else
      var later := LastUnwatched(es[1..], includeMissing);
      assert forall j :: 0 < j < |es| ==> es[j] == es[1..][j - 1];
      if later.Some? then
        ghost var i :| 0 <= i < |es[1..]| && es[1..][i] == later.value && Unwatched(es[1..][i], includeMissing)
                         && forall j :: i < j < |es[1..]| ==> !Unwatched(es[1..][j], includeMissing);
        assert es[i + 1] == later.value;
        later
      else if Unwatched(es[0], includeMissing) then Some(es[0])
      else None
  }

  /** The first unwatched episode. */
  function FirstUnwatched(es: seq<Episode>, includeMissing: bool): (r: Option<Episode>)
  {
    if es == [] then None
    else if Unwatched(es[0], includeMissing) then Some(es[0])
    else FirstUnwatched(es[1..], includeMissing)
  }

  /** The last unwatched episode of a concatenation is the last of the
      second part, or failing that the last of the first. */
  lemma {:induction false} LastUnwatchedAppend(a: seq<Episode>, b: seq<Episode>, includeMissing: bool)
    ensures LastUnwatched(a + b, includeMissing) ==
              if LastUnwatched(b, includeMissing).Some? then LastUnwatched(b, includeMissing)
              else LastUnwatched(a, includeMissing)
  {
    if a == [] {
      assert a + b == b;
    } else {
      assert (a + b)[0] == a[0];
      assert (a + b)[1..] == a[1..] + b;
      LastUnwatchedAppend(a[1..], b, includeMissing);
    }
  }

  /** Taking the last unwatched episode of the newest-first list is taking
      the first unwatched one in display order. */
  lemma {:induction false} LastOfReversed(es: seq<Episode>, includeMissing: bool)
    ensures LastUnwatched(Reverse(es), includeMissing) == FirstUnwatched(es, includeMissing)
  {
    if es != [] {
      LastOfReversed(es[1..], includeMissing);
      LastUnwatchedAppend(Reverse(es[1..]), [es[0]], includeMissing);
      assert [es[0]][1..] == [];
    }
  }

  // ---------------------------------------------------------------- the scan

  /** The scan state: the most recently watched episode once found, its
      last-played date, and the candidate next episode. */
  datatype ScanState = ScanState(lastWatched: Option<Episode>, lastWatchedDate: Date, nextUp: Option<Episode>)

  const Start: ScanState := ScanState(None, MinDate, None)

  /** The `foreach` over the episodes, newest first. A played episode ends
      the scan when one was already found or no candidate has been seen;
      otherwise it becomes the last watched one. An unwatched episode that
      may be offered replaces the candidate. */
  function ScanBack(es: seq<Episode>, includeMissing: bool, st: ScanState): (r: ScanState)
    ensures r.nextUp == st.nextUp || (r.nextUp.Some? && r.nextUp.value in es && Unwatched(r.nextUp.value, includeMissing))
    ensures r.lastWatched != st.lastWatched ==> r.lastWatched.Some? && r.lastWatched.value in es && r.lastWatched.value.played
    decreases |es|
  {
    if es == [] then st
    else if es[0].played then
      if st.lastWatched.Some? || st.nextUp.None? then st
      else ScanBack(es[1..], includeMissing, ScanState(Some(es[0]), es[0].lastPlayedDate.GetOr(MinDate), st.nextUp))
    else if Eligible(es[0], includeMissing) then
      ScanBack(es[1..], includeMissing, st.(nextUp := Some(es[0])))
    else
      ScanBack(es[1..], includeMissing, st)
  }

  /** The candidate is always an unwatched episode of the list or the one the
      scan started with, and a last-watched episode is only ever recorded
      with a candidate in hand. */
  lemma {:induction false} ScanBackInvariant(es: seq<Episode>, includeMissing: bool, st: ScanState)
    requires st.lastWatched.Some? ==> st.nextUp.Some?
    ensures var r := ScanBack(es, includeMissing, st);
            && (r.lastWatched.Some? ==> r.nextUp.Some?)
            && (r.nextUp == st.nextUp || (r.nextUp.Some? && r.nextUp.value in es && Unwatched(r.nextUp.value, includeMissing)))
    decreases |es|
  {
    if es != [] {
      var rest := es[1..];
      assert forall e :: e in rest ==> e in es;
      if es[0].played {
        if !(st.lastWatched.Some? || st.nextUp.None?) {
          ScanBackInvariant(rest, includeMissing, ScanState(Some(es[0]), es[0].lastPlayedDate.GetOr(MinDate), st.nextUp));
        }
      } else if Eligible(es[0], includeMissing) {
        ScanBackInvariant(rest, includeMissing, st.(nextUp := Some(es[0])));
      } else {
        ScanBackInvariant(rest, includeMissing, st);
      }
    }
  }

  /** Over episodes none of which is played, the scan only moves the
      candidate to the oldest unwatched one among them. */
  lemma {:induction false} ScanUnplayed(xs: seq<Episode>, ys: seq<Episode>, includeMissing: bool, st: ScanState)
    requires forall i :: 0 <= i < |xs| ==> !xs[i].played
    ensures ScanBack(xs + ys, includeMissing, st) ==
              ScanBack(ys, includeMissing,
                       if LastUnwatched(xs, includeMissing).Some? then st.(nextUp := LastUnwatched(xs, includeMissing))
                       else st)
    decreases |xs|
  {
    if xs == [] {
      assert xs + ys == ys;
    } else {
      assert (xs + ys)[0] == xs[0];
      assert (xs + ys)[1..] == xs[1..] + ys;
      var st1 := if Eligible(xs[0], includeMissing) then st.(nextUp := Some(xs[0])) else st;
      ScanUnplayed(xs[1..], ys, includeMissing, st1);
    }
  }

  /** What the scan of one series yields: the episode (or none), the date it
      is ranked by, and whether the user has not started the series. */
  datatype NextUpResult = NextUpResult(episode: Option<Episode>, date: Date, neverWatched: bool)

  /** `GetNextUp(Series, User)` over the newest-first list of episodes. When
      the scan finds no last-watched episode, the answer is the last
      unwatched episode of that list (the first one in display order). A
      series none of whose episodes is played is not started. */
  function NextUpFromNewest(newestFirst: seq<Episode>, includeMissing: bool): (r: NextUpResult)
    ensures r.episode.Some? ==> r.episode.value in newestFirst && Unwatched(r.episode.value, includeMissing)
    ensures !r.neverWatched ==> r.episode.Some?
    ensures r.neverWatched ==> r.date == MinDate
    ensures (forall i :: 0 <= i < |newestFirst| ==> !newestFirst[i].played) ==>
              r == NextUpResult(LastUnwatched(newestFirst, includeMissing), MinDate, true)
  {
    var st := ScanBack(newestFirst, includeMissing, Start);
    ScanBackInvariant(newestFirst, includeMissing, Start);
    assert (forall i :: 0 <= i < |newestFirst| ==> !newestFirst[i].played) ==> st.lastWatched.None? by {
      if forall i :: 0 <= i < |newestFirst| ==> !newestFirst[i].played {
        ScanUnplayed(newestFirst, [], includeMissing, Start);
        assert newestFirst + [] == newestFirst;
      }
    }
    if st.lastWatched.Some? then
      NextUpResult(st.nextUp, st.lastWatchedDate, false)
    else
      NextUpResult(LastUnwatched(newestFirst, includeMissing), MinDate, true)
  }

  /** `GetNextUp(Series, User)`: the seasons in display order without the
      specials, their episodes in turn, then reversed for the scan. */
  function GetNextUpFor(series: Series, includeMissing: bool): (r: NextUpResult)
    ensures r.episode.Some? ==>
              && r.episode.value in DisplayEpisodes(series.seasons)
              && Unwatched(r.episode.value, includeMissing)
    ensures !r.neverWatched ==> r.episode.Some?
    ensures r.neverWatched ==> r.date == MinDate
    ensures (forall i :: 0 <= i < |DisplayEpisodes(series.seasons)| ==> !DisplayEpisodes(series.seasons)[i].played) ==>
              r == NextUpResult(FirstUnwatched(DisplayEpisodes(series.seasons), includeMissing), MinDate, true)
  {
    var display := DisplayEpisodes(series.seasons);
    var r := NextUpFromNewest(Reverse(display), includeMissing);
    NoneReversedPlayed(display);
    LastOfReversed(display, includeMissing);
    ReverseMembers(display);
    r
  }

  /** When no episode is played, none of the reversed list is either. */
  lemma NoneReversedPlayed(display: seq<Episode>)
    ensures (forall i :: 0 <= i < |display| ==> !display[i].played) ==>
              forall i :: 0 <= i < |display| ==> !Reverse(display)[i].played
  {
    if forall i :: 0 <= i < |display| ==> !display[i].played {
      forall i | 0 <= i < |display| ensures !Reverse(display)[i].played {
        assert Reverse(display)[i] == display[|display| - 1 - i];
      }
    }
  }

  /** The user has not started the series: going back from the newest
      episode, a played episode (or the start of the series) comes before any
      episode that may be offered. The answer is then the first unwatched
      episode in display order, ranked at the least date and marked as not
      started. */
  lemma NotStarted(skipped: seq<Episode>, rest: seq<Episode>, includeMissing: bool)
    requires forall i :: 0 <= i < |skipped| ==> !skipped[i].played && !Eligible(skipped[i], includeMissing)
    requires rest == [] || rest[0].played
    ensures NextUpFromNewest(skipped + rest, includeMissing) ==
              NextUpResult(FirstUnwatched(Reverse(skipped + rest), includeMissing), MinDate, true)
  {
    ScanUnplayed(skipped, rest, includeMissing, Start);
    assert LastUnwatched(skipped, includeMissing).None?;
    LastOfReversedBack(skipped + rest, includeMissing);
  }

  /** Reversing twice restores the list, so the last unwatched episode of a
      newest-first list is the first unwatched one of its display order. */
  lemma LastOfReversedBack(es: seq<Episode>, includeMissing: bool)
    ensures LastUnwatched(es, includeMissing) == FirstUnwatched(Reverse(es), includeMissing)
  {
    LastOfReversed(Reverse(es), includeMissing);
    assert Reverse(Reverse(es)) == es;
  }

  /** The user is watching the series: going back from the newest episode,
      some unwatched episode that may be offered (in `newer`) comes before the
      most recent played one, `watched`. The scan records `watched` and its
      last-played date, goes on through the unplayed episodes `older` and
      stops at the next played one; the answer is the oldest unwatched
      episode it passed, in `newer` or `older`, marked as started. */
  lemma Resumed(newer: seq<Episode>, watched: Episode, older: seq<Episode>, rest: seq<Episode>, includeMissing: bool)
    requires forall i :: 0 <= i < |newer| ==> !newer[i].played
    requires exists i :: 0 <= i < |newer| && Eligible(newer[i], includeMissing)
    requires watched.played
    requires forall i :: 0 <= i < |older| ==> !older[i].played
    requires rest == [] || rest[0].played
    ensures NextUpFromNewest(newer + [watched] + older + rest, includeMissing) ==
              NextUpResult(LastUnwatched(newer + older, includeMissing), watched.lastPlayedDate.GetOr(MinDate), false)
  {
    ResumedScan(newer, watched, older, rest, includeMissing);
  }

  /** The scan of a resumed series ends with `watched` as the last watched
      episode, its date, and the oldest unwatched episode passed. */
  lemma ResumedScan(newer: seq<Episode>, watched: Episode, older: seq<Episode>, rest: seq<Episode>, includeMissing: bool)
    requires forall i :: 0 <= i < |newer| ==> !newer[i].played
    requires exists i :: 0 <= i < |newer| && Eligible(newer[i], includeMissing)
    requires watched.played
    requires forall i :: 0 <= i < |older| ==> !older[i].played
    requires rest == [] || rest[0].played
    ensures ScanBack(newer + [watched] + older + rest, includeMissing, Start)
            == ScanState(Some(watched), watched.lastPlayedDate.GetOr(MinDate), LastUnwatched(newer + older, includeMissing))
  {
    var cand := LastUnwatched(newer, includeMissing);
    assert cand.Some?;
    AppendFour(newer, [watched], older, rest);
    ScanNewer(newer, [watched] + (older + rest), includeMissing);
    ScanWatched(watched, older + rest, includeMissing, Start.(nextUp := cand));
    ScanOlder(older, rest, includeMissing, ScanState(Some(watched), watched.lastPlayedDate.GetOr(MinDate), cand));
    LastUnwatchedAppend(newer, older, includeMissing);
  }

  /** Four lists joined from the left are joined from the right. */
  lemma AppendFour(a: seq<Episode>, b: seq<Episode>, c: seq<Episode>, d: seq<Episode>)
    ensures a + b + c + d == a + (b + (c + d))
  {
  }

  /** Unplayed episodes at the start of the scan leave the newest unwatched
      one of them as the candidate. */
  lemma ScanNewer(newer: seq<Episode>, tail: seq<Episode>, includeMissing: bool)
    requires forall i :: 0 <= i < |newer| ==> !newer[i].played
    requires LastUnwatched(newer, includeMissing).Some?
    ensures ScanBack(newer + tail, includeMissing, Start)
            == ScanBack(tail, includeMissing, Start.(nextUp := LastUnwatched(newer, includeMissing)))
  {
    ScanUnplayed(newer, tail, includeMissing, Start);
  }

  /** A played episode met after a candidate, with nothing watched yet,
      becomes the last watched one. */
  lemma ScanWatched(watched: Episode, es: seq<Episode>, includeMissing: bool, st: ScanState)
    requires watched.played && st.lastWatched.None? && st.nextUp.Some?
    ensures ScanBack([watched] + es, includeMissing, st)
            == ScanBack(es, includeMissing, ScanState(Some(watched), watched.lastPlayedDate.GetOr(MinDate), st.nextUp))
  {
    assert ([watched] + es)[0] == watched && ([watched] + es)[1..] == es;
  }

  /** Once an episode is watched, the scan takes the unplayed episodes that
      follow and stops at the next played one. */
  lemma ScanOlder(older: seq<Episode>, rest: seq<Episode>, includeMissing: bool, st: ScanState)
    requires st.lastWatched.Some?
    requires forall i :: 0 <= i < |older| ==> !older[i].played
    requires rest == [] || rest[0].played
    ensures ScanBack(older + rest, includeMissing, st)
            == if LastUnwatched(older, includeMissing).Some? then st.(nextUp := LastUnwatched(older, includeMissing)) else st
  {
    ScanUnplayed(older, rest, includeMissing, st);
  }

  // ---------------------------------------------------------------- filtering and ranking

  /** `FilterSeries`: when the query names a series, only that series, as
      often as it occurs. */
  function FilterSeries(query: NextUpQuery, series: seq<Series>): (r: seq<Series>)
    ensures IsNullOrWhiteSpace(query.seriesId) ==> r == series
    ensures !IsNullOrWhiteSpace(query.seriesId) ==>
              forall s :: s in r <==> s in series && s.id == query.seriesId
    ensures |r| <= |series|
  {
    if IsNullOrWhiteSpace(query.seriesId) then series
    else SeriesWithId(series, query.seriesId)
  }

  /** How often `FilterSeries` keeps a series: as often as it occurs when no
      series is named or it is the named one, otherwise never. */
  lemma FilterSeriesCount(query: NextUpQuery, series: seq<Series>, s: Series)
    ensures multiset(FilterSeries(query, series))[s]
            == if IsNullOrWhiteSpace(query.seriesId) || s.id == query.seriesId then multiset(series)[s] else 0
  {
    if !IsNullOrWhiteSpace(query.seriesId) {
      SeriesWithIdCount(series, query.seriesId, s);
    }
  }

  /** The filter keeps the order of the series: filtering `a + b` is
      filtering `a`, then `b`. */
  lemma FilterSeriesAppend(query: NextUpQuery, a: seq<Series>, b: seq<Series>)
    ensures FilterSeries(query, a + b) == FilterSeries(query, a) + FilterSeries(query, b)
  {
    if !IsNullOrWhiteSpace(query.seriesId) {
      SeriesWithIdAppend(a, b, query.seriesId);
    }
  }

  /** `Where(i => i.Id == id)`: the series with that id. */
  function SeriesWithId(series: seq<Series>, id: string): (r: seq<Series>)
    ensures forall s :: s in r <==> s in series && s.id == id
    ensures |r| <= |series|
  {
    Where(series, (s: Series) => s.id == id)
  }

  /** The series with the id are kept as often as they occur, no other is. */
  lemma SeriesWithIdCount(series: seq<Series>, id: string, s: Series)
    ensures multiset(SeriesWithId(series, id))[s] == if s.id == id then multiset(series)[s] else 0
  {
    WhereCount(series, (s: Series) => s.id == id, s);
  }

  /** The filter keeps the order of the series: filtering `a + b` is
      filtering `a`, then `b`. */
  lemma SeriesWithIdAppend(a: seq<Series>, b: seq<Series>, id: string)
    ensures SeriesWithId(a + b, id) == SeriesWithId(a, id) + SeriesWithId(b, id)
  {
    WhereAppend(a, b, (s: Series) => s.id == id);
  }

  /** The rating key: 2 for a favourite series, else 1 when liked, -1 when
      disliked and 0 when the user has not rated it. */
  function Score(s: Series): (r: int)
    ensures -1 <= r <= 2
    ensures r == 2 <==> s.isFavorite
    ensures r == 1 <==> !s.isFavorite && s.likes == Some(true)
    ensures r == 0 <==> !s.isFavorite && s.likes.None?
    ensures r == -1 <==> !s.isFavorite && s.likes == Some(false)
  {
    if s.isFavorite then 2
    else match s.likes
      case Some(liked) => if liked then 1 else -1
      case None => 0
  }

  /** A series that takes part in the ranking: the scan found an episode, and
      either the user has started the series or the query names it. */
  predicate Kept(query: NextUpQuery, r: NextUpResult) {
    r.episode.Some? && (!r.neverWatched || !IsNullOrWhiteSpace(query.seriesId))
  }

  /** An episode with its three sort keys. */
  datatype Candidate = Candidate(episode: Episode, score: int, date: Date, premiere: Date)

  function CandidateOf(s: Series, r: NextUpResult): Candidate
    requires r.episode.Some?
  {
    Candidate(r.episode.value, Score(s), r.date, r.episode.value.premiereDate.GetOr(MinDate))
  }

  /** The candidate a series contributes: its next-up episode with its
      keys, when the series is kept. */
  function CandidateFor(query: NextUpQuery, includeMissing: bool, s: Series): Option<Candidate> {
    var r := GetNextUpFor(s, includeMissing);
    if Kept(query, r) then Some(CandidateOf(s, r)) else None
  }

  /** `CandidateFor` as a function value, for `Select`. */
  function CandidateSelector(query: NextUpQuery, includeMissing: bool): Series -> Option<Candidate> {
    s => CandidateFor(query, includeMissing, s)
  }

  /** The kept series' episodes with their keys, in series order. */
  function Candidates(query: NextUpQuery, includeMissing: bool, series: seq<Series>): (cs: seq<Candidate>)
    ensures |cs| <= |series|
    ensures forall c :: c in cs <==>
              exists s :: s in series && Kept(query, GetNextUpFor(s, includeMissing))
                          && c == CandidateOf(s, GetNextUpFor(s, includeMissing))
  {
    CandidatesMembers(query, includeMissing, series);
    SelectSome(series, CandidateSelector(query, includeMissing))
  }

  /** Each candidate occurs once for every series position that gives it:
      a series yields at most one candidate. */
  lemma CandidatesCount(query: NextUpQuery, includeMissing: bool, series: seq<Series>, c: Candidate)
    ensures multiset(Candidates(query, includeMissing, series))[c]
            == |set j | 0 <= j < |series| && CandidateFor(query, includeMissing, series[j]) == Some(c)|
  {
    var f := CandidateSelector(query, includeMissing);
    SelectSomeCount(series, f, c);
    assert Positions(series, f, c)
           == set j | 0 <= j < |series| && CandidateFor(query, includeMissing, series[j]) == Some(c);
  }

  /** A value is selected exactly when some series is kept and gives it. */
  lemma CandidatesMembers(query: NextUpQuery, includeMissing: bool, series: seq<Series>)
    ensures forall c :: c in SelectSome(series, CandidateSelector(query, includeMissing)) <==>
              exists s :: s in series && Kept(query, GetNextUpFor(s, includeMissing))
                          && c == CandidateOf(s, GetNextUpFor(s, includeMissing))
  {
    var f := CandidateSelector(query, includeMissing);
    assert forall s :: f(s) == CandidateFor(query, includeMissing, s);
  }

  /** The candidates keep the order of the series: those of `a + b` are
      those of `a`, then those of `b`. */
  lemma CandidatesAppend(query: NextUpQuery, includeMissing: bool, a: seq<Series>, b: seq<Series>)
    ensures Candidates(query, includeMissing, a + b)
            == Candidates(query, includeMissing, a) + Candidates(query, includeMissing, b)
  {
    SelectSomeAppend(a, b, CandidateSelector(query, includeMissing));
  }

  /** `a` comes no later than `b`: a higher score, then a later ranking date,
      then a later premiere date (each descending). */
  predicate RanksAtLeast(a: Candidate, b: Candidate) {
    || a.score > b.score
    || (a.score == b.score && a.date > b.date)
    || (a.score == b.score && a.date == b.date && a.premiere >= b.premiere)
  }

  predicate Ranked(cs: seq<Candidate>) {
    forall i, j :: 0 <= i < j < |cs| ==> RanksAtLeast(cs[i], cs[j])
  }

  /** A candidate that ranks at least as high as every candidate of a ranked
      list may head it. */
  lemma RankedCons(a: Candidate, t: seq<Candidate>)
    requires Ranked(t) && forall k :: 0 <= k < |t| ==> RanksAtLeast(a, t[k])
    ensures Ranked([a] + t)
  {
    var r := [a] + t;
    forall i, j | 0 <= i < j < |r| ensures RanksAtLeast(r[i], r[j]) {
      assert r[j] == t[j - 1];
      if i > 0 {
        assert r[i] == t[i - 1];
      }
    }
  }

  /** A candidate that ranks at least as high as the head of a ranked list
      ranks at least as high as all of it. */
  lemma AheadOfAll(c: Candidate, cs: seq<Candidate>)
    requires Ranked(cs) && cs != [] && RanksAtLeast(c, cs[0])
    ensures forall k :: 0 <= k < |cs| ==> RanksAtLeast(c, cs[k])
  {
    forall k | 0 < k < |cs| ensures RanksAtLeast(c, cs[k]) {
      assert RanksAtLeast(cs[0], cs[k]);
    }
  }

  /** The head of a ranked list that `c` does not rank ahead of ranks at
      least as high as every candidate of the rest with `c` inserted. */
  lemma HeadAheadOfInsert(c: Candidate, cs: seq<Candidate>, tail: seq<Candidate>)
    requires Ranked(cs) && cs != [] && !RanksAtLeast(c, cs[0])
    requires multiset(tail) == multiset(cs[1..]) + multiset{c}
    ensures forall k :: 0 <= k < |tail| ==> RanksAtLeast(cs[0], tail[k])
  {
    forall k | 0 <= k < |tail| ensures RanksAtLeast(cs[0], tail[k]) {
      assert tail[k] in multiset(tail);
      if tail[k] != c {
        assert tail[k] in cs[1..];
      }
    }
  }

  /** Places `c` into a ranked list before the first candidate it ranks at
      least as high as. */
  function Insert(c: Candidate, cs: seq<Candidate>): (r: seq<Candidate>)
    requires Ranked(cs)
    ensures Ranked(r)
    ensures multiset(r) == multiset(cs) + multiset{c}
  {
    if cs == [] then [c]
    else if RanksAtLeast(c, cs[0]) then
      AheadOfAll(c, cs);
      RankedCons(c, cs);
      [c] + cs
    else
      var tail := Insert(c, cs[1..]);
      assert cs == [cs[0]] + cs[1..];
      HeadAheadOfInsert(c, cs, tail);
      RankedCons(cs[0], tail);
      [cs[0]] + tail
  }

  /** `OrderByDescending(score).ThenByDescending(date).ThenByDescending(premiere)`.
      The source sorts a parallel query, which does not keep the input order
      of candidates whose keys are all equal; the contract leaves that order
      open too. */
  function RankCandidates(cs: seq<Candidate>): (r: seq<Candidate>)
    ensures Ranked(r)
    ensures multiset(r) == multiset(cs)
  {
    if cs == [] then []
    else
      assert cs == [cs[0]] + cs[1..];
      Insert(cs[0], RankCandidates(cs[1..]))
  }

  /** `GetNextUpEpisodes`: the filtered series' next-up candidates, ranked. */
  function RankedCandidates(query: NextUpQuery, user: User, series: seq<Series>): (r: seq<Candidate>)
    ensures Ranked(r)
    ensures multiset(r) == multiset(Candidates(query, user.displayMissingEpisodes, FilterSeries(query, series)))
  {
    RankCandidates(Candidates(query, user.displayMissingEpisodes, FilterSeries(query, series)))
  }

  /** Every candidate is an unwatched episode, one that may be offered, of
      one of the series it was drawn from. */
  lemma CandidatesFromSeries(query: NextUpQuery, includeMissing: bool, series: seq<Series>, c: Candidate)
    requires c in Candidates(query, includeMissing, series)
    ensures exists s :: s in series && c.episode in DisplayEpisodes(s.seasons) && Unwatched(c.episode, includeMissing)
  {
    var s :| s in series && Kept(query, GetNextUpFor(s, includeMissing))
             && c == CandidateOf(s, GetNextUpFor(s, includeMissing));
  }

  /** The episodes of a list of candidates, in order. */
  function EpisodesOf(cs: seq<Candidate>): (r: seq<Episode>)
    ensures |r| == |cs|
    ensures forall i :: 0 <= i < |cs| ==> r[i] == cs[i].episode
  {
    if cs == [] then [] else [cs[0].episode] + EpisodesOf(cs[1..])
  }

  /** The episodes of the ranked candidates: at most one per selected series,
      each an unwatched episode of that series that may be offered, in the
      order of a ranking of the kept candidates. */
  function GetNextUpEpisodes(query: NextUpQuery, user: User, series: seq<Series>): (r: seq<Episode>)
    ensures |r| <= |FilterSeries(query, series)|
    ensures r == EpisodesOf(RankedCandidates(query, user, series))
    ensures forall e :: e in r ==>
              exists s :: s in FilterSeries(query, series)
                          && e in DisplayEpisodes(s.seasons) && Unwatched(e, user.displayMissingEpisodes)
  {
    var selected := FilterSeries(query, series);
    var cs := Candidates(query, user.displayMissingEpisodes, selected);
    var ranked := RankedCandidates(query, user, series);
    assert |ranked| == |cs| by {
      assert |multiset(ranked)| == |multiset(cs)|;
    }
    var r := EpisodesOf(ranked);
    assert forall e :: e in r ==>
              exists s :: s in selected && e in DisplayEpisodes(s.seasons) && Unwatched(e, user.displayMissingEpisodes) by {
      forall e | e in r
        ensures exists s :: s in selected && e in DisplayEpisodes(s.seasons) && Unwatched(e, user.displayMissingEpisodes)
      {
        var i :| 0 <= i < |r| && r[i] == e;
        assert ranked[i] in multiset(cs);
        CandidatesFromSeries(query, user.displayMissingEpisodes, selected, ranked[i]);
      }
    }
    r
  }

  /** The episodes are those of some ranking of the kept candidates of the
      selected series, in that order. */
  lemma GetNextUpEpisodesRanked(query: NextUpQuery, user: User, series: seq<Series>)
    ensures exists cs :: Ranked(cs) && GetNextUpEpisodes(query, user, series) == EpisodesOf(cs)
                         && multiset(cs) == multiset(Candidates(query, user.displayMissingEpisodes, FilterSeries(query, series)))
  {
    var cs := RankedCandidates(query, user, series);
    assert GetNextUpEpisodes(query, user, series) == EpisodesOf(cs);
  }

  /** Favourites first: no episode of an unrated, liked or disliked series
      is ranked before an episode of a favourite series. */
  lemma FavouritesFirst(query: NextUpQuery, user: User, series: seq<Series>, i: int, j: int)
    requires 0 <= i < j < |RankedCandidates(query, user, series)|
    requires RankedCandidates(query, user, series)[j].score == 2
    ensures RankedCandidates(query, user, series)[i].score == 2
  {
    var r := RankedCandidates(query, user, series);
    assert RanksAtLeast(r[i], r[j]);
    var cs := Candidates(query, user.displayMissingEpisodes, FilterSeries(query, series));
    assert r[i] in multiset(cs);
    CandidateScore(query, user.displayMissingEpisodes, FilterSeries(query, series), r[i]);
  }

  /** A candidate's score is the rating key of the series it came from. */
  lemma CandidateScore(query: NextUpQuery, includeMissing: bool, series: seq<Series>, c: Candidate)
    requires c in Candidates(query, includeMissing, series)
    ensures exists s :: s in series && c.score == Score(s)
    ensures -1 <= c.score <= 2
  {
    var s :| s in series && Kept(query, GetNextUpFor(s, includeMissing))
             && c == CandidateOf(s, GetNextUpFor(s, includeMissing));
  }

  // ---------------------------------------------------------------- paging

  /** A LINQ count clamped to the list: a negative count means none. */
  function Clamp(n: int, len: nat): (k: nat)
    ensures k <= len
  {
    if n <= 0 then 0 else if n >= len then len else n
  }

  /** `Skip(n)`. */
  function Skip<T>(xs: seq<T>, n: int): seq<T> {
    xs[Clamp(n, |xs|)..]
  }

  /** `Take(n)`. */
  function Take<T>(xs: seq<T>, n: int): seq<T> {
    xs[..Clamp(n, |xs|)]
  }

  datatype QueryResult<T> = QueryResult(totalRecordCount: nat, items: seq<T>)

  /** `GetResult`: the total is counted before paging (after the optional
      cap); the page skips `StartIndex` items and, when a `Limit` is given,
      takes at most that many. */
  function GetResult<T>(items: seq<T>, totalRecordLimit: Option<int>, query: NextUpQuery): (r: QueryResult<T>)
    ensures totalRecordLimit.None? ==> r.totalRecordCount == |items|
    ensures totalRecordLimit.Some? ==> r.totalRecordCount == Clamp(totalRecordLimit.value, |items|)
    ensures var k := Clamp(query.startIndex.GetOr(0), r.totalRecordCount);
            && |r.items| == (if query.limit.Some? then Clamp(query.limit.value, r.totalRecordCount - k)
                             else r.totalRecordCount - k)
            && forall i :: 0 <= i < |r.items| ==> r.items[i] == items[k + i]
  {
    var all := if totalRecordLimit.Some? then Take(items, totalRecordLimit.value) else items;
    assert forall j :: 0 <= j < |all| ==> all[j] == items[j];
    QueryResult(|all|, Page(all, query))
  }

  /** The page of `all`: it skips `StartIndex` items and, when a `Limit` is
      given, takes at most that many of the rest. */
  function Page<T>(all: seq<T>, query: NextUpQuery): (page: seq<T>)
    ensures var k := Clamp(query.startIndex.GetOr(0), |all|);
            && |page| == (if query.limit.Some? then Clamp(query.limit.value, |all| - k) else |all| - k)
            && forall i :: 0 <= i < |page| ==> page[i] == all[k + i]
  {
    if query.limit.Some? then Take(Skip(all, query.startIndex.GetOr(0)), query.limit.value)
    else if query.startIndex.Some? then Skip(all, query.startIndex.value)
    else all
  }

  /** Two consecutive pages together are the page as long as both. */
  lemma PagesConcatenate<T>(items: seq<T>, userId: string, seriesId: string, start: nat, n: nat, m: nat)
    ensures GetResult(items, None, NextUpQuery(userId, seriesId, Some(start), Some(n))).items
          + GetResult(items, None, NextUpQuery(userId, seriesId, Some(start + n), Some(m))).items
         == GetResult(items, None, NextUpQuery(userId, seriesId, Some(start), Some(n + m))).items
  {
    PagesJoin(items, NextUpQuery(userId, seriesId, Some(start), Some(n)),
              NextUpQuery(userId, seriesId, Some(start + n), Some(m)),
              NextUpQuery(userId, seriesId, Some(start), Some(n + m)));
  }

  /** The page of `n` items from `start` followed by the page of `m` items
      from `start + n` is the page of `n + m` items from `start`. */
  lemma PagesJoin<T>(all: seq<T>, first: NextUpQuery, second: NextUpQuery, both: NextUpQuery)
    requires first.startIndex.Some? && first.limit.Some? && second.limit.Some?
    requires first.startIndex.value >= 0 && first.limit.value >= 0 && second.limit.value >= 0
    requires second.startIndex == Some(first.startIndex.value + first.limit.value)
    requires both == first.(limit := Some(first.limit.value + second.limit.value))
    ensures Page(all, first) + Page(all, second) == Page(all, both)
  {
    var a, b, c := Page(all, first), Page(all, second), Page(all, both);
    assert |a| + |b| == |c|;
    assert forall i :: 0 <= i < |c| ==> (a + b)[i] == c[i];
  }

  // ---------------------------------------------------------------- the query

  datatype NextUpError = UserNotFound

  /** `GetNextUp(NextUpQuery)`: the requesting user must exist; `series` are
      the series in the user's library (or under the requested parent). */
  function GetNextUp(users: map<string, User>, query: NextUpQuery, series: seq<Series>)
    : (r: Result<QueryResult<Episode>, NextUpError>)
    ensures r.Failure? <==> query.userId !in users
    ensures r.Success? ==>
              var all := GetNextUpEpisodes(query, users[query.userId], series);
              var k := Clamp(query.startIndex.GetOr(0), |all|);
              && r.value.totalRecordCount == |all|
              && r.value.totalRecordCount <= |FilterSeries(query, series)|
              && |r.value.items| == (if query.limit.Some? then Clamp(query.limit.value, |all| - k) else |all| - k)
              && forall i :: 0 <= i < |r.value.items| ==> r.value.items[i] == all[k + i]
  {
    if query.userId !in users then Failure(UserNotFound)
    else
      NextUpPage(query, users[query.userId], series);
      Success(GetResult(GetNextUpEpisodes(query, users[query.userId], series), None, query))
  }

  /** The page of next-up episodes for one user: the total counts every
      episode, at most one per selected series, and the page is the run of
      episodes after the skipped ones. */
  lemma NextUpPage(query: NextUpQuery, user: User, series: seq<Series>)
    ensures var all := GetNextUpEpisodes(query, user, series);
            var k := Clamp(query.startIndex.GetOr(0), |all|);
            var page := GetResult(all, None, query);
            && page.totalRecordCount == |all|
            && page.totalRecordCount <= |FilterSeries(query, series)|
            && |page.items| == (if query.limit.Some? then Clamp(query.limit.value, |all| - k) else |all| - k)
            && forall i :: 0 <= i < |page.items| ==> page.items[i] == all[k + i]
  {
  }
}

=== FILE: seqs.dfy ===
/** LINQ's `Where` and `Select(…).Where(…)` over sequences, with what they
    keep, how often, and in which order. */
module Seqs {
  import opened Wrappers

  /** `Where(p)`: the elements that satisfy `p`. */
  function Where<T(==,!new)>(xs: seq<T>, p: T -> bool): (r: seq<T>)
    ensures |r| <= |xs|
    ensures forall x :: x in r <==> x in xs && p(x)
  {
    if xs == [] then []
    else
      assert forall x :: x in xs ==> x == xs[0] || x in xs[1..];
      (if p(xs[0]) then [xs[0]] else []) + Where(xs[1..], p)
  }

  /** `Where` keeps each element that satisfies `p` as often as it occurs,
      and no other. */
  lemma {:induction false} WhereCount<T(!new)>(xs: seq<T>, p: T -> bool, x: T)
    ensures multiset(Where(xs, p))[x] == if p(x) then multiset(xs)[x] else 0
    decreases |xs|
  {
    if xs != [] {
      assert xs == [xs[0]] + xs[1..];
      WhereHead(xs, p);
      WhereCount(xs[1..], p, x);
    }
  }

  /** `Where` keeps order: filtering `a + b` is filtering `a`, then `b`. */
  lemma {:induction false} WhereAppend<T(!new)>(a: seq<T>, b: seq<T>, p: T -> bool)
    ensures Where(a + b, p) == Where(a, p) + Where(b, p)
    decreases |a|
  {
    if a == [] {
      assert a + b == b;
    } else {
      WhereCons(a, b, p);
      WhereAppend(a[1..], b, p);
      Associates(if p(a[0]) then [a[0]] else [], Where(a[1..], p), Where(b, p));
    }
  }

  /** Filtering a list with a head: the head if it passes, then the rest. */
  lemma WhereCons<T(!new)>(a: seq<T>, b: seq<T>, p: T -> bool)
    requires a != []
    ensures Where(a + b, p) == (if p(a[0]) then [a[0]] else []) + Where(a[1..] + b, p)
  {
    assert (a + b)[0] == a[0] && (a + b)[1..] == a[1..] + b;
  }

  /** The first element `Where` keeps is the first element that satisfies
      `p`. */
  lemma {:induction false} WhereFirst<T(!new)>(xs: seq<T>, p: T -> bool, k: int)
    requires 0 <= k < |xs| && p(xs[k])
    requires forall i :: 0 <= i < k ==> !p(xs[i])
    ensures Where(xs, p) != [] && Where(xs, p)[0] == xs[k]
    decreases k
  {
    if k > 0 {
      WhereFirst(xs[1..], p, k - 1);
    }
  }

  /** Both tests, as one. */
  function Both<T>(p: T -> bool, q: T -> bool): T -> bool {
    x => p(x) && q(x)
  }

  /** Two filters in a row are one filter by both tests. */
  lemma {:induction false} WhereWhere<T(!new)>(xs: seq<T>, p: T -> bool, q: T -> bool)
    ensures Where(Where(xs, p), q) == Where(xs, Both(p, q))
    decreases |xs|
  {
    if xs == [] {
      assert Where(xs, p) == [];
    } else {
      var x, rest, both := xs[0], xs[1..], Both(p, q);
      assert both(x) == (p(x) && q(x));
      WhereHead(xs, p);
      WhereHead(xs, both);
      WhereWhere(rest, p, q);
      if p(x) {
        WhereAppend([x], Where(rest, p), q);
        WhereOne(x, q);
        assert Where(Where(xs, p), q) == Where([x], q) + Where(Where(rest, p), q);
        assert Where(xs, both) == Where([x], q) + Where(rest, both);
      } else {
        assert [] + Where(rest, p) == Where(rest, p);
        assert Where(xs, p) == Where(rest, p);
        assert Where(xs, both) == Where(rest, both);
      }
    }
  }

  /** Filtering a non-empty list: its head if it passes, then the rest. */
  lemma WhereHead<T(!new)>(xs: seq<T>, p: T -> bool)
    requires xs != []
    ensures Where(xs, p) == (if p(xs[0]) then [xs[0]] else []) + Where(xs[1..], p)
  {
  }

  /** Filtering one element keeps it exactly when it passes. */
  lemma WhereOne<T(!new)>(x: T, p: T -> bool)
    ensures Where([x], p) == if p(x) then [x] else []
  {
    assert [x][1..] == [];
  }

  /** The positions of `xs` at which `f` gives `c`. */
  function Positions<S, C(==)>(xs: seq<S>, f: S -> Option<C>, c: C): set<int> {
    set j | 0 <= j < |xs| && f(xs[j]) == Some(c)
  }

  /** `Select(f).Where(v => v != null)`: the values `f` gives, in order. */
  function SelectSome<S(==,!new), C(==,!new)>(xs: seq<S>, f: S -> Option<C>): (r: seq<C>)
    ensures |r| <= |xs|
    ensures forall c :: c in r <==> exists x :: x in xs && f(x) == Some(c)
  {
    if xs == [] then []
    else
      assert forall x :: x in xs ==> x == xs[0] || x in xs[1..];
      (if f(xs[0]).Some? then [f(xs[0]).value] else []) + SelectSome(xs[1..], f)
  }

  /** `SelectSome` keeps order: the values of `a + b` are those of `a`, then
      those of `b`. */
  lemma {:induction false} SelectSomeAppend<S(!new), C(!new)>(a: seq<S>, b: seq<S>, f: S -> Option<C>)
    ensures SelectSome(a + b, f) == SelectSome(a, f) + SelectSome(b, f)
    decreases |a|
  {
    if a == [] {
      assert a + b == b;
    } else {
      SelectSomeCons(a, b, f);
      SelectSomeAppend(a[1..], b, f);
      Associates(SelectSome([a[0]], f), SelectSome(a[1..], f), SelectSome(b, f));
    }
  }

  /** The values of `a + b` for a non-empty `a`: those of `a`'s head, then
      those of the rest. */
  lemma SelectSomeCons<S(!new), C(!new)>(a: seq<S>, b: seq<S>, f: S -> Option<C>)
    requires a != []
    ensures SelectSome(a + b, f) == SelectSome([a[0]], f) + SelectSome(a[1..] + b, f)
    ensures SelectSome(a, f) == SelectSome([a[0]], f) + SelectSome(a[1..], f)
  {
    SelectSomeHead(a + b, f);
    SelectSomeHead(a, f);
    assert (a + b)[0] == a[0] && (a + b)[1..] == a[1..] + b;
  }

  /** The values of a non-empty list: the first element's, then the rest's. */
  lemma SelectSomeHead<S(!new), C(!new)>(xs: seq<S>, f: S -> Option<C>)
    requires xs != []
    ensures SelectSome(xs, f) == SelectSome([xs[0]], f) + SelectSome(xs[1..], f)
  {
    SelectSomeSingle(xs[0], f);
  }

  /** The values of a one-element list: its value, if it has one. */
  lemma SelectSomeSingle<S(!new), C(!new)>(x: S, f: S -> Option<C>)
    ensures SelectSome([x], f) == if f(x).Some? then [f(x).value] else []
  {
    assert [x][1..] == [];
  }

  /** Each value occurs in `SelectSome` once for every position of `xs` that
      gives it. */
  lemma {:induction false} SelectSomeCount<S(!new), C(!new)>(xs: seq<S>, f: S -> Option<C>, c: C)
    ensures multiset(SelectSome(xs, f))[c] == |Positions(xs, f, c)|
    decreases |xs|
  {
    if xs == [] {
      assert Positions(xs, f, c) == {};
    } else {
      var n := |xs| - 1;
      assert xs == xs[..n] + [xs[n]];
      SelectSomeAppend(xs[..n], [xs[n]], f);
      SelectSomeCount(xs[..n], f, c);
      SelectSomeOne(xs[n], f, c);
      PositionsSnoc(xs, f, c);
    }
  }

  /** A one-element list gives its value once, if it has one. */
  lemma SelectSomeOne<S(!new), C(!new)>(x: S, f: S -> Option<C>, c: C)
    ensures multiset(SelectSome([x], f))[c] == if f(x) == Some(c) then 1 else 0
  {
    assert [x][1..] == [];
  }

  /** The positions giving `c`: those of all but the last element, and the
      last one if it does. */
  lemma PositionsSnoc<S, C>(xs: seq<S>, f: S -> Option<C>, c: C)
    requires xs != []
    ensures |Positions(xs, f, c)| == |Positions(xs[..|xs| - 1], f, c)| + (if f(xs[|xs| - 1]) == Some(c) then 1 else 0)
  {
    var n := |xs| - 1;
    var last: set<int> := if f(xs[n]) == Some(c) then {n} else {};
    assert Positions(xs, f, c) == Positions(xs[..n], f, c) + last;
    assert Positions(xs[..n], f, c) !! last;
  }

  /** Concatenation is associative. */
  lemma Associates<T>(x: seq<T>, y: seq<T>, z: seq<T>)
    ensures x + (y + z) == (x + y) + z
  {
  }
}

=== FILE: text.dfy ===
/** The part of .NET's System.String and Int32 behaviour that the modelled
    code relies on: whitespace tests and trimming, ordinal case-insensitive
    comparison, character search, `Split`/`Join`, decimal rendering and
    parsing of integers, and the reversal of a sequence.

    Case-insensitive comparison (`StringComparison.OrdinalIgnoreCase`) is
    modelled as folding the ASCII letters only. */
module Text {
  import opened Wrappers

  /** A predicate holding of every character of `s`. */
  predicate All(s: string, p: char -> bool) {
    forall i :: 0 <= i < |s| ==> p(s[i])
  }

  /** `Enumerable.Reverse`: the elements of `xs`, last first. */
  function Reverse<T>(xs: seq<T>): (r: seq<T>)
    ensures |r| == |xs|
    ensures forall i :: 0 <= i < |xs| ==> r[i] == xs[|xs| - 1 - i]
  {
    if xs == [] then [] else Reverse(xs[1..]) + [xs[0]]
  }

  /** Reversal keeps the elements. */
  lemma ReverseMembers<T>(xs: seq<T>)
    ensures forall a :: a in Reverse(xs) <==> a in xs
  {
    forall a | a in xs ensures a in Reverse(xs) {
      var i :| 0 <= i < |xs| && xs[i] == a;
      assert Reverse(xs)[|xs| - 1 - i] == a;
    }
  }

  /** The reversed list starts with the last element, followed by the
      reversed rest. */
  lemma ReverseLast<T>(xs: seq<T>)
    requires xs != []
    ensures Reverse(xs)[0] == xs[|xs| - 1]
    ensures Reverse(xs)[1..] == Reverse(xs[..|xs| - 1])
  {
    ReverseTail(xs, |xs|);
  }

  /** Dropping the first of the reversed list leaves the reversed list
      without its last element; `n` names the length. */
  lemma ReverseTail<T>(xs: seq<T>, n: nat)
    requires n == |xs| > 0
    ensures Reverse(xs)[1..] == Reverse(xs[..n - 1])
  {
    var rev, rest := Reverse(xs), Reverse(xs[..n - 1]);
    forall i | 0 <= i < n - 1 ensures rev[1..][i] == rest[i] {
      assert rest[i] == xs[..n - 1][n - 2 - i];
    }
  }

  // ---------------------------------------------------------------- whitespace

  /** `char.IsWhiteSpace`: the Unicode space separators, the controls from
      tab to carriage return, next-line, and the line/paragraph separators. */
  predicate IsWhiteSpace(c: char) {
    || c == ' '
    || '\t' <= c <= '\r'
    || c == '\U{85}' || c == '\U{A0}' || c == '\U{1680}'
    || '\U{2000}' <= c <= '\U{200A}'
    || c == '\U{2028}' || c == '\U{2029}' || c == '\U{202F}'
    || c == '\U{205F}' || c == '\U{3000}'
  }

  /** `string.IsNullOrWhiteSpace` (a null string is not representable here:
      callers that could pass null pass the empty string). */
  predicate IsNullOrWhiteSpace(s: string) {
    All(s, IsWhiteSpace)
  }

  /** The length of the longest prefix of `s` made of `white` characters. */
  function LeadingRun(s: string, white: char -> bool): (n: nat)
    ensures n <= |s|
    ensures forall i :: 0 <= i < n ==> white(s[i])
    ensures n < |s| ==> !white(s[n])
  {
    if s != [] && white(s[0]) then 1 + LeadingRun(s[1..], white) else 0
  }

  /** The length of the longest suffix of `s` made of `white` characters. */
  function TrailingRun(s: string, white: char -> bool): (n: nat)
    ensures n <= |s|
    ensures forall i :: |s| - n <= i < |s| ==> white(s[i])
    ensures n < |s| ==> !white(s[|s| - n - 1])
  {
    if s != [] && white(s[|s| - 1]) then 1 + TrailingRun(s[..|s| - 1], white) else 0
  }

  /** `s` with every leading and trailing `white` character removed. */
  function TrimBy(s: string, white: char -> bool): (t: string)
    ensures |t| <= |s|
    ensures t == [] <==> All(s, white)
    ensures t != [] ==> !white(t[0]) && !white(t[|t| - 1])
  {
    var a := LeadingRun(s, white);
    if a == |s| then []
    else
      var b := |s| - TrailingRun(s, white);
      assert !white(s[a]);
      s[a..b]
  }

  /** `string.Trim()`. */
  function Trim(s: string): (t: string)
    ensures |t| <= |s|
    ensures t == [] <==> IsNullOrWhiteSpace(s)
    ensures t != [] ==> !IsWhiteSpace(t[0]) && !IsWhiteSpace(t[|t| - 1])
  {
    TrimBy(s, IsWhiteSpace)
  }

  /** Trimming is idempotent: a string without `white` characters at either
      end is its own trim. */
  lemma TrimByTrimmed(t: string, white: char -> bool)
    requires t != [] ==> !white(t[0]) && !white(t[|t| - 1])
    ensures TrimBy(t, white) == t
  {
    if t != [] {
      assert LeadingRun(t, white) == 0;
      assert TrailingRun(t, white) == 0;
      assert t[0..|t|] == t;
    }
  }

  lemma TrimIdempotent(s: string)
    ensures Trim(Trim(s)) == Trim(s)
  {
    TrimByTrimmed(Trim(s), IsWhiteSpace);
  }

  // ---------------------------------------------------------------- case folding

  predicate IsUpper(c: char) { 'A' <= c <= 'Z' }
  predicate IsLetter(c: char) { 'A' <= c <= 'Z' || 'a' <= c <= 'z' }

  function LowerChar(c: char): char {
    if IsUpper(c) then (c as int + 32) as char else c
  }

  function Lower(s: string): (r: string)
    ensures |r| == |s|
    ensures forall i :: 0 <= i < |s| ==> r[i] == LowerChar(s[i])
  {
    seq(|s|, i requires 0 <= i < |s| => LowerChar(s[i]))
  }

  /** `string.Equals(a, b, StringComparison.OrdinalIgnoreCase)`. */
  predicate EqualsIgnoreCase(a: string, b: string) {
    Lower(a) == Lower(b)
  }

  /** `s.StartsWith(prefix, StringComparison.OrdinalIgnoreCase)`. */
  predicate StartsWithIgnoreCase(s: string, prefix: string) {
    |prefix| <= |s| && EqualsIgnoreCase(s[..|prefix|], prefix)
  }

  /** `s.IndexOf(p, StringComparison.OrdinalIgnoreCase) != -1`. */
  predicate ContainsIgnoreCase(s: string, p: string) {
    exists i :: 0 <= i <= |s| - |p| && StartsWithIgnoreCase(s[i..], p)
  }

  /** Ordinal `s.EndsWith(suffix)`. */
  predicate EndsWith(s: string, suffix: string) {
    |suffix| <= |s| && s[|s| - |suffix|..] == suffix
  }

  lemma LowerAppend(a: string, b: string)
    ensures Lower(a + b) == Lower(a) + Lower(b)
  {
  }

  /** Any string starts with itself, whatever follows. */
  lemma StartsWithIgnoreCaseAppend(p: string, x: string)
    ensures StartsWithIgnoreCase(p + x, p)
  {
    assert (p + x)[..|p|] == p;
  }

  /** Case-insensitive prefixes compose: a string that starts with `p + q`
      starts with `p`. */
  lemma StartsWithIgnoreCaseShorter(s: string, p: string, q: string)
    requires StartsWithIgnoreCase(s, p + q)
    ensures StartsWithIgnoreCase(s, p)
  {
    assert s[..|p|] == s[..|p + q|][..|p|];
    assert p == (p + q)[..|p|];
    assert Lower(s[..|p|]) == Lower(s[..|p + q|])[..|p|];
  }

  /** Folding case is invisible through a case-insensitive prefix test. */
  lemma StartsWithIgnoreCaseLower(s: string, p: string)
    ensures StartsWithIgnoreCase(s, p) <==> StartsWithIgnoreCase(Lower(s), p)
  {
    if |p| <= |s| {
      assert Lower(s)[..|p|] == Lower(s[..|p|]);
      assert Lower(Lower(s[..|p|])) == Lower(s[..|p|]);
    }
  }

  /** For a prefix without letters, the case-insensitive test is the ordinal one. */
  lemma StartsWithIgnoreCaseNoLetters(s: string, p: string)
    requires forall i :: 0 <= i < |p| ==> !IsLetter(p[i])
    ensures StartsWithIgnoreCase(s, p) <==> p <= s
  {
    if StartsWithIgnoreCase(s, p) {
      forall i | 0 <= i < |p|
        ensures s[i] == p[i]
      {
        assert Lower(s[..|p|])[i] == Lower(p)[i];
      }
    }
  }

  /** A common head does not change which string is a prefix of which. */
  lemma PrefixCancel(p: string, x: string, y: string)
    ensures (p + x <= p + y) <==> x <= y
  {
    if p + x <= p + y {
      assert x == (p + x)[|p|..] == (p + y)[|p|..|p| + |x|] == y[..|x|];
    }
    if x <= y {
      assert p + x == (p + y)[..|p| + |x|];
    }
  }

  // ---------------------------------------------------------------- search and split

  /** `s.IndexOf(c)`: the first position of `c` in `s`, or -1. */
  function IndexOf(s: string, c: char): (r: int)
    ensures -1 <= r < |s|
    ensures r == -1 <==> c !in s
    ensures 0 <= r ==> s[r] == c && c !in s[..r]
  {
    if s == [] then -1
    else if s[0] == c then 0
    else
      var k := IndexOf(s[1..], c);
      if k < 0 then -1
      else
        assert s[..k + 1] == [s[0]] + s[1..][..k];
        k + 1
  }

  /** The first `c` of `a + [c] + b` is the one after `a` when `a` has none. */
  lemma IndexOfAfter(a: string, c: char, b: string)
    requires c !in a
    ensures IndexOf(a + [c] + b, c) == |a|
  {
    var s := a + [c] + b;
    assert s[..|a|] == a;
    assert s[..|a| + 1] == a + [c];
  }

  /** `s.Split(new[] { c }, 2)`: at most two pieces, cut at the first `c`. */
  function SplitFirst(s: string, c: char): (parts: seq<string>)
    ensures 1 <= |parts| <= 2
    ensures |parts| == 1 <==> c !in s
    ensures |parts| == 1 ==> parts[0] == s
    ensures |parts| == 2 ==> s == parts[0] + [c] + parts[1] && c !in parts[0]
  {
    var i := IndexOf(s, c);
    if i < 0 then [s]
    else
      assert s == s[..i] + [c] + s[i + 1..];
      [s[..i], s[i + 1..]]
  }

  /** Cutting at the first separator finds the one placed after a
      separator-free prefix. */
  lemma SplitFirstAround(a: string, c: char, b: string)
    requires c !in a
    ensures SplitFirst(a + [c] + b, c) == [a, b]
  {
    var s := a + [c] + b;
    IndexOfAfter(a, c, b);
    assert s[..|a|] == a;
    assert s[|a| + 1..] == b;
  }

  /** `s.Split(c)`: the pieces between the occurrences of `c`. */
  function Split(s: string, c: char): (parts: seq<string>)
    ensures |parts| >= 1
    ensures forall k :: 0 <= k < |parts| ==> c !in parts[k]
    decreases |s|
  {
    var i := IndexOf(s, c);
    if i < 0 then [s] else [s[..i]] + Split(s[i + 1..], c)
  }

  /** `string.Join(c.ToString(), parts)`. */
  function Join(parts: seq<string>, c: char): string {
    if parts == [] then []
    else if |parts| == 1 then parts[0]
    else parts[0] + [c] + Join(parts[1..], c)
  }

  lemma JoinCons(head: string, tail: seq<string>, c: char)
    requires |tail| >= 1
    ensures Join([head] + tail, c) == head + [c] + Join(tail, c)
  {
    assert ([head] + tail)[1..] == tail;
  }

  /** One step of `Split`: the piece before the first separator, then the
      split of what follows it. */
  lemma SplitUnfold(s: string, c: char)
    requires c in s
    ensures var i := IndexOf(s, c);
            && Split(s, c) == [s[..i]] + Split(s[i + 1..], c)
            && s == s[..i] + [c] + s[i + 1..]
  {
    CutAt(s, IndexOf(s, c));
  }

  /** A string is the text before position `i`, its character there, and the
      text after. */
  lemma CutAt(s: string, i: int)
    requires 0 <= i < |s|
    ensures s == s[..i] + [s[i]] + s[i + 1..]
  {
    assert s[..i] + [s[i]] == s[..i + 1];
  }

  /** Joining the pieces of a split gives the string back. */
  lemma {:induction false} JoinSplit(s: string, c: char)
    ensures Join(Split(s, c), c) == s
    decreases |s|
  {
    if c in s {
      var i := IndexOf(s, c);
      SplitUnfold(s, c);
      JoinCons(s[..i], Split(s[i + 1..], c), c);
      JoinSplit(s[i + 1..], c);
    }
  }

  /** Splitting a join of separator-free pieces gives the pieces back. */
  lemma {:induction false} SplitJoin(parts: seq<string>, c: char)
    requires |parts| >= 1
    requires forall k :: 0 <= k < |parts| ==> c !in parts[k]
    ensures Split(Join(parts, c), c) == parts
  {
    if |parts| > 1 {
      var tail := Join(parts[1..], c);
      SplitJoin(parts[1..], c);
      IndexOfAfter(parts[0], c, tail);
      var s := parts[0] + [c] + tail;
      assert s[..|parts[0]|] == parts[0];
      assert s[|parts[0]| + 1..] == tail;
    } else {
      assert IndexOf(parts[0], c) == -1;
    }
  }

  /** A string without the separator is one part. */
  lemma SplitWithout(s: string, c: char)
    requires c !in s
    ensures Split(s, c) == [s]
  {
  }

  /** Splitting distributes over a separator placed between two strings. */
  lemma SplitAround(a: string, c: char, b: string)
    requires c !in a
    ensures Split(a + [c] + b, c) == [a] + Split(b, c)
  {
    var s := a + [c] + b;
    IndexOfAfter(a, c, b);
    assert s[..|a|] == a;
    assert s[|a| + 1..] == b;
  }

  // ---------------------------------------------------------------- decimal numbers

  predicate IsDigit(c: char) { '0' <= c <= '9' }

  function DigitValue(c: char): nat
    requires IsDigit(c)
  {
    c as int - '0' as int
  }

  function DigitChar(d: nat): char
    requires d < 10
  {
    ('0' as int + d) as char
  }

  /** `n.ToString(CultureInfo.InvariantCulture)` for a non-negative `n`:
      at least one digit and no leading zero. */
  function Decimal(n: nat): (s: string)
    ensures |s| >= 1 && All(s, IsDigit)
    ensures s[0] == '0' ==> n == 0
    decreases n
  {
    if n < 10 then [DigitChar(n)] else Decimal(n / 10) + [DigitChar(n % 10)]
  }

  /** The value of a string of decimal digits, most significant first. */
  function DigitsValue(s: string): nat
    requires All(s, IsDigit)
  {
    if s == [] then 0 else 10 * DigitsValue(s[..|s| - 1]) + DigitValue(s[|s| - 1])
  }

  /** Reading back a rendered number gives the number. */
  lemma {:induction false} DecimalRoundTrip(n: nat)
    ensures DigitsValue(Decimal(n)) == n
    decreases n
  {
    if n >= 10 {
      DecimalRoundTrip(n / 10);
      var s := Decimal(n);
      assert s[..|s| - 1] == Decimal(n / 10);
    }
  }

  /** How many digits `Decimal` writes. */
  lemma {:induction false} DecimalLength(n: nat)
    ensures n < 10 ==> |Decimal(n)| == 1
    ensures 10 <= n < 100 ==> |Decimal(n)| == 2
    ensures 100 <= n ==> |Decimal(n)| >= 3
    ensures 100 <= n < 1000 ==> |Decimal(n)| == 3
    decreases n
  {
    if n >= 10 {
      DecimalLength(n / 10);
    }
  }

  lemma DecimalInjective(a: nat, b: nat)
    requires Decimal(a) == Decimal(b)
    ensures a == b
  {
    DecimalRoundTrip(a);
    DecimalRoundTrip(b);
  }

  // ---------------------------------------------------------------- Int32.TryParse

  const Int32Min: int := -0x8000_0000
  const Int32Max: int := 0x7FFF_FFFF

  /** The characters `NumberStyles.Integer` lets `Int32.TryParse` skip on
      either side of the number. */
  predicate IsNumberWhite(c: char) {
    c == ' ' || '\t' <= c <= '\r'
  }

  /** `Int32.TryParse(s, out v)` in the invariant culture: optional
      surrounding white, an optional `+` or `-`, then one or more decimal
      digits, whose value must fit in 32 bits. */
  function TryParseInt32(s: string): (r: Option<int>)
    ensures r.Some? ==> Int32Min <= r.value <= Int32Max
  {
    var t := TrimBy(s, IsNumberWhite);
    var negative := t != [] && t[0] == '-';
    var digits := if t != [] && (t[0] == '-' || t[0] == '+') then t[1..] else t;
    if digits == [] || !All(digits, IsDigit) then None
    else
      var magnitude: int := DigitsValue(digits);
      var v: int := if negative then -magnitude else magnitude;
      if Int32Min <= v <= Int32Max then Some(v) else None
  }

  /** A number rendered in decimal parses back to itself. */
  lemma TryParseDecimal(n: nat)
    requires n <= Int32Max
    ensures TryParseInt32(Decimal(n)) == Some(n)
  {
    var s := Decimal(n);
    assert !IsNumberWhite(s[0]) && !IsNumberWhite(s[|s| - 1]);
    TrimByTrimmed(s, IsNumberWhite);
    DecimalRoundTrip(n);
  }
}

=== FILE: wrappers.dfy ===
/** Failure-compatible wrappers: `Option` stands for a nullable reference,
    `Result` for a value or the exception the operation would raise. */
module Wrappers {

  datatype Option<+T> = None | Some(value: T) {

    /** The value, or `default` when absent (C#'s `??`). */
    function GetOr(default: T): T {
      match this
      case Some(v) => v
      case None => default
    }
  }

  datatype Result<+R, +E> = Success(value: R) | Failure(error: E) {

    predicate IsFailure() {
      Failure?
    }

    function PropagateFailure<U>(): Result<U, E>
      requires Failure?
    {
      Failure(error)
    }

    function Extract(): R
      requires Success?
    {
      value
    }
  }
}
